=== FILE: README.md ===
# DictMatch: finding a JSON object in text by its keys

This project models `DictMatch` from `json_retriever.py`, which finds JSON
objects inside arbitrary text. Such an object is one whose text contains
every one of several key patterns, in any order.

A retriever is built from at least two keys. It glues them into one combined
lookahead pattern. It then extracts objects one at a time:

1. A pre-filter cuts a window around the latest first match of the keys.
   The window's left edge is the character just before the `\W` run that
   precedes the nearest `{` at or before that match that follows a `\W`
   character (a `{` right after a word character is skipped). That is a word
   character, or -1 when the run reaches the start of the text. Its right
   edge is one past the next `}`.
2. The combined pattern is searched in the window. On a miss, the window
   moves on through the text.
3. The match is cut at its first `\W+{`.
4. A bracket balancer walks the window's edges over the text until the `{`
   and `}` counts line up.
5. The window is decoded as JSON. After every failed decode it is balanced
   again. All balancing shares one iteration counter capped by a limit.
6. A search over the decoded tree keeps the last object, in pre-order, whose
   serialisation matches every key.

Iteration restarts each extraction on the text after a stream cursor.

The Dafny modules follow that structure:

- `PyStr`: the Python string primitives, with CPython's rules for negative
  and out-of-range indices written out. These are slicing, `find`, `rfind`,
  `count`, reversal and literal-key search.
- `Json`: decoded values and Python truthiness.
- `Keys`: the key list (at least two keys), per-key matching, and the latest
  first-match offset.
- `Patterns`: the combined pattern text, the `\W+{` split, and the `{\W+`
  search over a reversed prefix.
- `Prefilter`: `_truncate_for_speedup` as written, a corrected version, and
  the lemmas that show the difference (see Findings).
- `Balance`: `_balance_brackets`. Its three loops are one count-driven walk
  (`Walk`). The method `BalanceLoop` is one of the `while` loops as written,
  for the loop's phase, and `BalanceBrackets` runs it for the three phases
  and is shown to end where the walk ends.
- `Decoder`: the decode loop of `dict_from_regex` (balance, then
  `json.loads`, balancing again after every failure), with a reference
  definition: the list of windows the loop hands to `json.loads`, of which
  the loop keeps the first one `loads` accepts.
- `Subdict`: `_subdict_from_big`, with a reference definition. The reference
  is the list of nodes the walk visits, folded from left to right.
- `Retriever`: construction, `dict_from_regex` and `dict_iter`.

Keys are modelled as literal substrings. A key's first match is its first
occurrence. Four things are parameters of the model:

- `search(pattern, text)`: the combined pattern's search. Any match it
  returns lies inside the text and spans at least four characters, since the
  pattern needs `{"`, one character for `.+?` and the closing `}`.
- `loads`: `json.loads`, returning `None` where Python raises `ValueError`.
  It is required to reject the empty text.
- `dumps`: `json.dumps`.
- `truncate`: the pre-filter. The retriever is stated for any pre-filter
  whose answer has the shape both versions have (`Prefilter.PrefilterShaped`).
  `Prefilter.TruncateForSpeedup` is the code as written and is what the
  retriever runs; `Prefilter.TruncateForSpeedupFixed` is the corrected one.

`\w` is the ASCII class `[A-Za-z0-9_]`.

## Model

| member | source | states |
|---|---|---|
| `PyStr.Slice` | json_retriever.py:47 | `s[a:b]` has length max(0, hi - lo) for the normalised bounds, and its k-th character is `s[lo + k]` |
| `PyStr.RFind` | json_retriever.py:46 | `rfind` returns -1 or an index of `c` inside the normalised range, and no `c` lies in the range above it |
| `PyStr.Find` | json_retriever.py:52 | `find` returns -1 or an index of `c` at or after the normalised start, and no `c` lies between the start and it |
| `PyStr.Count` | json_retriever.py:43-44 | `count` of one character is at most the length of the string |
| `PyStr.CountIsMultiplicity` | json_retriever.py:43-44 | `my_str.count(c)` is the number of times `c` occurs in the string, its multiplicity |
| `PyStr.FirstOccurrence` | json_retriever.py:68-70 | a key's `search(...).start()` is an offset where the key occurs, with no occurrence before it, or -1 when it occurs nowhere |
| `Keys.MatchesAll` | json_retriever.py:85-90 | checking the first key, then the rest until one fails, is true exactly when every key matches |
| `Keys.FoundStarts` | json_retriever.py:66-71 | the collected first-match offsets are as many as the keys exactly when every key matches, and then the i-th is the i-th key's first match |
| `Keys.LastKey` | json_retriever.py:72 | `max(truncate_starts)` is one of the keys' first matches, no key's first match lies after it, and it is an index of the text |
| `Patterns.CombinedPattern` | json_retriever.py:19-25 | the pattern text begins with `{"[^{]*` and ends with `.+?}` |
| `Patterns.LookaheadsContainGroup` | json_retriever.py:21-23 | the joined lookaheads hold the group `(?=.*key)` of the i-th key at its own offset, after the groups of the keys before it |
| `Patterns.CombinedPatternNamesEveryKey` | json_retriever.py:19-25 | the combined pattern holds the i-th key's own `(?=.*key)` group just after the head and the earlier groups, and the key itself right after that group's `(?=.*` |
| `Patterns.SplitRemoveWord` | json_retriever.py:114 | the split of `\W+{` finds nothing exactly when no `{` follows a `\W` character; otherwise it cuts just after such a `{` |
| `Patterns.OpenSearch` | json_retriever.py:73 | the search for `{\W+` returns the leftmost qualifying `{` and the end of the greedy `\W` run after it, or nothing exactly when no `{` qualifies |
| `Prefilter.RevPrefix` | json_retriever.py:73 | `val[lk::-1]` holds the characters from `lk` (or the last one, when `lk` is past the end) down to 0, in that order |
| `Prefilter.ReversedSearch` | json_retriever.py:73 | searching the reversed prefix fails exactly when no `{` preceded by `\W` lies at or before `lk`; otherwise it finds the nearest such `{` and the `\W` run before it |
| `Prefilter.LeftEdge` | json_retriever.py:73-76 | `last_key - start_re.end()` is the offset just before the `\W` run that precedes the chosen `{`, and may be -1; it is None exactly when no `{` qualifies |
| `Prefilter.LeftEdgeIsNearest` | json_retriever.py:73 | no qualifying `{` lies between the chosen one and `lk` |
| `Prefilter.RightEdge` | json_retriever.py:74-76 | `last_key + end_re.end()` is one past the first `}` at or after `lk`, and -1 exactly when there is none |
| `Prefilter.TruncateForSpeedup` | json_retriever.py:65-80 | `(-1, -1)` unless every key matches and both searches succeed (both directions); otherwise the window is built from those two edges and has `s < last_key < e <= len` |
| `Prefilter.TruncateForSpeedupFixed` | json_retriever.py:65-80 | the corrected pre-filter: a window exactly when every key matches, a `{` (possibly at offset 0) qualifies and a `}` follows; its left edge lies in `[0, brace]`, so the window is an ordinary slice holding the `{` |
| `Prefilter.PrefiltersShaped` | json_retriever.py:65-80 | both pre-filters give no window exactly when the right edge is -1, and otherwise `-1 <= s < e <= len` with `e > 0`; only the corrected one never pairs a window with a left edge of -1 |
| `Prefilter.LeftEdgeWrapsAtTextStart` | json_retriever.py:73-76 | when only `\W` characters precede the chosen `{`, the left edge is -1, and Python's `val[-1:e]` is the last character of the text when `e` is the length and empty otherwise, so it never holds the `{` |
| `Prefilter.ObjectAtTextStartSkipped` | json_retriever.py:73-80 | a text that opens with its object, with no other `{` before the last key, gets `(-1, -1)` as written and a window from offset 0 once corrected |
| `Prefilter.SampleTextWraps` | json_retriever.py:73-76 | on ` {"x":0,"a":1,"b":2}` with keys `"a"`, `"b"`, the pre-filter returns `(-1, 20)`, and the window `val[-1:20]` is `}` |
| `Prefilter.SampleObjectAtStartSkipped` | json_retriever.py:73-80 | on `{"x":0,"a":1,"b":2}` with keys `"a"`, `"b"`, the pre-filter as written returns `(-1, -1)`, while the corrected one returns the whole text `(0, 19)` |
| `Balance.BackStep` | json_retriever.py:46 | a backward step lands on a `{` below the normalised bound `start - 1`, the nearest one, or on -1 |
| `Balance.ForwardStep` | json_retriever.py:52 | a forward step lands on a `}` at or after the normalised bound `end + 1`, the nearest one, or on -1 |
| `Balance.Cut` | json_retriever.py:47 | `val[start:end+1]` is the inclusive slice when both edges lie in the text, at most the last character when the left edge is -1, and empty when the right edge is -1 |
| `Balance.Walk` | json_retriever.py:42-63 | the shared counter never decreases and stays at or below the limit. Entered at the first loop below the limit, one of the three loops always takes a step, so the counter grows. A walk that takes no step keeps the window, and one that steps leaves the window `val[start:end+1]` of its edges |
| `Balance.WalkEdges` | json_retriever.py:45-62 | the walk moves the left edge only by `rfind('{')` steps and the right edge only by `find('}')` steps: each edge is unchanged, -1, or on a `{` (left) or `}` (right) |
| `Balance.WalkBalances` | json_retriever.py:57-62 | a walk that stops below the limit stops with at least as many `{` as `}`, since the third loop has run out |
| `Balance.BalanceLoop` | json_retriever.py:45-62 | one `while` loop as written (the loop of its phase) stops with its condition false or the counter at the limit, and the walk from where it stops is the walk from where it started |
| `Balance.BalanceBrackets` | json_retriever.py:42-63 | the three loops as written end exactly at the window and counter of the count-driven walk; entered below the limit the counter grows and stays at or below the limit; returning below the limit means at least as many `{` as `}` |
| `Decoder.Tries` | json_retriever.py:122-127 | the loop only stops early on a value `loads` accepts, from the window it holds; a miss means the counter reached the limit; an exhausted counter returns at once |
| `Decoder.Decode` | json_retriever.py:121-127 | a decoded value is what `loads` makes of a window `val[start:end+1]` with `end >= 0`; no value means the counter reached the limit; an exhausted counter decodes nothing |
| `Decoder.Tried` | json_retriever.py:122-127 | reference definition of the windows the loop hands to `loads`: none once the counter is at the limit, otherwise the held window and then each rebalanced one; at most as many as counter units remain, and all after the first are windows `val[start:end+1]` |
| `Decoder.DecodeTried` | json_retriever.py:121-127 | the windows tried from the split window on, after the first balancing: none with an exhausted counter, fewer than the counter units left, each a window `val[start:end+1]` of the text |
| `Decoder.FirstAccepted` | json_retriever.py:123-126 | the position of the first window `loads` accepts: every window before it is rejected, and the one at it is accepted unless it is past the end |
| `Decoder.TriesFirstAccepted` | json_retriever.py:122-127 | the loop finds nothing exactly when `loads` accepts none of the tried windows, and otherwise stops at the first accepted one with the value `loads` gives it |
| `Decoder.DecodeFirstAccepted` | json_retriever.py:121-127 | the decode loop has no value exactly when `loads` rejects every window it tries, and otherwise holds the first accepted window and its value |
| `Decoder.TriesEdges` | json_retriever.py:122-127 | the decode loop moves the left edge only to a `{` or -1 and the right edge only to a `}` or -1 |
| `Decoder.DecodeEdges` | json_retriever.py:121-127 | the same holds from the split window on |
| `Decoder.DecodeLoop` | json_retriever.py:121-127 | the loop as written, with `_balance_brackets` called once and then after every `ValueError`, computes exactly `Decode` |
| `Subdict.Sub` | json_retriever.py:82-98 | `_prev` on exit is its value on entry or an object whose serialisation matches every key |
| `Subdict.SubFields` | json_retriever.py:93-95 | the loop over an object's members keeps the same invariant |
| `Subdict.SubItems` | json_retriever.py:96-98 | the loop over a list's items keeps the same invariant |
| `Subdict.Visit` | json_retriever.py:82-98 | reference definition of the nodes the walk is called on, in call order: the list starts with the node itself, then member values that match the first key and every list item, each with its own visits |
| `Subdict.SubIsPickOfVisit` | json_retriever.py:82-98 | the walk equals the left fold over `Visit` that replaces the remembered value by every qualifying node |
| `Subdict.SubFieldsIsPick` | json_retriever.py:93-95 | the member loop from member `i` on equals the fold over the visits of the remaining matching members |
| `Subdict.SubItemsIsPick` | json_retriever.py:96-98 | the item loop from item `i` on equals the fold over the visits of the remaining items |
| `Subdict.PickAppend` | json_retriever.py:92 | folding over a concatenation is folding the second part from the first part's result |
| `Subdict.PickIsLastQualifying` | json_retriever.py:92 | the fold returns the entry value when no node qualifies, and otherwise the last qualifying node |
| `Subdict.SubKeepsLastVisitedMatch` | json_retriever.py:82-98 | the walk returns `prev` when no visited node qualifies, and otherwise the last qualifying node in visiting order, so a matching descendant overrides its matching ancestor |
| `Retriever.NewDictMatch` | json_retriever.py:6-29 | construction fails with `TypeError` exactly when there are fewer than two keys. Otherwise the keys and limit (2000 by default) are stored, the cursor and counter are 0, nothing is remembered, and the pattern is the combined pattern |
| `Retriever.Retry` | json_retriever.py:104-110 | the loop ends with the search result for the window it last searched; it has a window exactly when it started with one, and edges only move right; a miss means the first window missed too, and, with a positive right edge, that the pre-filter found no left edge after it |
| `Retriever.FindCandidate` | json_retriever.py:102-110 | there is no window exactly when the pre-filter found none on the whole text, and then no match; a miss means the pre-filter's first window missed; a match lies inside the window and the text |
| `Retriever.FirstWindowHit` | json_retriever.py:102-104 | a match in the pre-filter's first window is taken as it is, without retrying |
| `Retriever.SplitWindow` | json_retriever.py:113-119 | `my_start` as computed is just before the piece after the split, the piece is `val[my_start+1:my_end]`, and `my_start` is the match start minus one exactly when nothing splits |
| `Retriever.SplitAt` | json_retriever.py:113-120 | the window built from a match split after `cut` characters ends just past the match, starts just before the piece after the split, and holds that piece; when the split happened the start is offset `cut - 1` of the match, a `{` after a `\W` character, and otherwise just before the match |
| `Retriever.Split` | json_retriever.py:112-120 | the piece after the first `\W+{` of the match is `val[my_start+1:my_end]`, with `my_end` just past the match; `my_start` is the `{` at which `_remove_word` splits, at the offset the split reports, exactly when it splits, and the character before the match otherwise |
| `Retriever.DictFromRegex` | json_retriever.py:100-134 | no match means `{}` with the counter reset and the cursor kept, and only then. With a match, a raise changes only the counter and keeps the cursor, and a return moves the cursor past a slice of the text that `loads` decodes to a non-empty value, whose sub-document search from `{}` is the result. A return resets the counter and remembers the result, which is `{}` or a matching object. An exhausted counter yields a raise or `{}` |
| `Retriever.CandidateTried` | json_retriever.py:112-127 | the windows tried for a match are those tried from the split of the match; none with an exhausted counter, each a window `val[start:end+1]` of the text |
| `Retriever.MatchOutcome` | json_retriever.py:112-130 | with a match, the call returns exactly when the first tried window `loads` accepts decodes to a non-empty value: the result is the sub-document search of that value, the cursor moves to just past the window, the counter is reset and the result remembered. Otherwise it raises `TypeError` changing only the counter, which is used up when no window was accepted |
| `Retriever.NothingDecodedRaises` | json_retriever.py:121-129 | a match none of whose tried windows `loads` accepts raises `TypeError`, with the counter run up to the limit |
| `Retriever.AdvanceFromText` | json_retriever.py:35 | a call on `val[cursor:]` that returns a non-empty value moves the cursor forward, to at most one past the end of the text, and the value comes from a slice of the whole text |
| `Retriever.Iterate` | json_retriever.py:33-39 | a run from a cursor yields no more values than characters remain; it keeps the keys, pattern and limit; an exhausted counter yields nothing |
| `Retriever.IterateStops` | json_retriever.py:34-39 | a run ends exactly when its first call raises or returns an empty value, leaving that call's state; otherwise it yields that call's value first, after the cursor moved forward |
| `Retriever.IterateFromText` | json_retriever.py:33-39 | every value a run yields is non-empty, names every key, and is the sub-document search of a value decoded from a slice of the text |
| `Retriever.DictIter` | json_retriever.py:31-40 | the loop as written resets the cursor to 0 and yields exactly the run from there, leaving its final state; so at most `len(val)` values, and none with an exhausted counter |
| `Retriever.SampleObjectMissed` | json_retriever.py:100-111 | with the pre-filter as written, on `{"x":0,"a":1,"b":2}` with keys `"a"`, `"b"`, the call returns `{}` as if nothing were left, and a run yields nothing |
| `Retriever.SampleObjectSearched` | json_retriever.py:102-110 | with the corrected pre-filter, the same text is its own first window, so the combined pattern is searched over the whole object, and a match there is taken as it is; the call then does not report that nothing is left |

## Left out

- `process_safe_disk_queue.py` is not part of this model. It is a wrapper over an on-disk queue and file locks, with only I/O behaviour.
- Regular-expression matching of the combined pattern is a parameter (`search`). Only its text is built in the model. So what the pattern itself matches is not modelled. An example is that its leading `{"` takes the quote that opens the first member's name: a key written with its quotes, such as `"a"`, is never found when it names the object's first member.
- Keys are literal substrings, not regular expressions.
- `json.loads` and `json.dumps` are parameters. Only the `ValueError` of `loads` is modelled, as `None`. Numbers are reals, and NaN and infinities are left out.
- `.encode('utf-8')` at lines 84 and 94 is the identity, as in Python 2. Under Python 3 a text pattern searched over bytes raises `TypeError`, and that is not modelled.
- `\w` is ASCII only. Python 3's Unicode `\w` is not modelled.
- `dict_iter` is a generator. The model collects its values into a sequence, so laziness and interleaving with the caller are not modelled.
- The pre-filter is a parameter of the retriever. The properties of `Retriever` hold for any pre-filter with the shape `Prefilter.PrefilterShaped` describes, and so for the code as written. What the as-written pre-filter does to the retriever on the sample text is stated in `Retriever.SampleObjectMissed`.
- Patterns.SplitRemoveWord: the contract does not say which qualifying `{` the split picks. The body picks the last `{` of the first `\W` run that holds one.
- Balance.Walk: that each edge moves only to a brace or -1 is stated by `Balance.WalkEdges`, and the balance on exit by `Balance.WalkBalances`, not in the function's own contract.
- Decoder.Decode: the same holds. The edges are stated by `Decoder.DecodeEdges`, and which window it keeps by `Decoder.DecodeFirstAccepted`; `Decoder.Tries` likewise by `Decoder.TriesEdges` and `Decoder.TriesFirstAccepted`.
- Retriever.DictFromRegex: its result for a match, in terms of the windows the decode loop tries, is stated by `Retriever.MatchOutcome`, not in the function's own contract.
- The retry loop adds the new window's offset, which is relative to the text after the old right edge, to the old left edge (line 108). This is modelled as written.
- Where the code and its design description differ, the model follows the code. The counter is reset only on a normal return (line 131), not at the start of each attempt. An exhausted budget raises `TypeError`, and only `dict_iter` turns that into the end of the iteration.

## Findings

| source | as written | input that shows it | evidently intended | confidence | as-written member | corrected member |
|---|---|---|---|---|---|---|
| json_retriever.py:73-76 | the left edge `last_key - start_re.end()` is -1 when the `\W` run before the `{` reaches the start of the text, and the window `my_val[-1:e]` is then at most the last character | ` {"x":0,"a":1,"b":2}` with keys `"a"`, `"b"`: `(-1, 20)`, window `}` | a window starting at offset 0 | medium, not executed | `Prefilter.SampleTextWraps` | `Prefilter.TruncateForSpeedupFixed` |
| json_retriever.py:73-80 | `{\W+` on the reversed prefix needs a character before the `{`, so an object at offset 0 gets no window when no other `{` lies between it and the last key, and `dict_from_regex` returns `{}` as if the text held nothing more | `{"x":0,"a":1,"b":2}` with keys `"a"`, `"b"`: `(-1, -1)` | the window `(0, 19)` | medium, not executed | `Prefilter.SampleObjectAtStartSkipped`, `Retriever.SampleObjectMissed` | `Prefilter.TruncateForSpeedupFixed`, `Retriever.SampleObjectSearched` |

=== FILE: balance.dfy ===
/**
 * The bracket balancer: three offset-walking loops that move the edges of a
 * candidate window over the full text until its `{` and `}` counts line up,
 * each step paid for from a shared iteration counter capped by a limit.
 */
module Balance {
  import opened PyStr

  /** A candidate window: its text and the offsets of its edges in the full
      text. The right edge is inclusive (`text` is `val[start:end+1]` once a
      step has run). */
  datatype Window = Window(text: string, start: int, end: int)

  /** `val.rfind('{', 0, start - 1)`: the nearest `{` below the (normalised)
      bound `start - 1`, or -1. A bound of 0 or -1 counts from the end of the
      text, as Python's does. */
  function BackStep(val: string, start: int): (s: int)
    ensures s == -1 || (0 <= s < Clamp(start - 1, |val|) && val[s] == '{')
    ensures forall k :: s < k < Clamp(start - 1, |val|) ==> val[k] != '{'
  {
    RFind(val, '{', 0, start - 1)
  }

  /** `val.find('}', end + 1)`: the nearest `}` at or after the (normalised)
      bound `end + 1`, or -1. */
  function ForwardStep(val: string, end: int): (e: int)
    ensures e == -1 || (Clamp(end + 1, |val|) <= e < |val| && val[e] == '}')
    ensures forall k :: Clamp(end + 1, |val|) <= k < |val| && (e == -1 || k < e) ==> val[k] != '}'
  {
    Find(val, '}', end + 1)
  }

  /** The window `val[start:end+1]`: an ordinary inclusive slice when both
      edges lie in the text, at most the last character when the left edge is
      the -1 of a failed `rfind`, and empty when the right edge is the -1 of a
      failed `find`. */
  function Cut(val: string, start: int, end: int): (w: Window)
    ensures w.start == start && w.end == end
    ensures 0 <= start <= end < |val| ==> w.text == val[start..end + 1]
    ensures start == -1 ==> |w.text| <= 1
    ensures end == -1 ==> w.text == []
  {
    Window(Slice(val, start, end + 1), start, end)
  }

  /** A step of the first or third loop: the left edge moves back to the
      nearest `{` before it. */
  function StepLeft(val: string, w: Window): Window
  {
    Cut(val, BackStep(val, w.start), w.end)
  }

  /** A step of the second loop: the right edge moves on to the nearest `}`
      after it. */
  function StepRight(val: string, w: Window): Window
  {
    Cut(val, w.start, ForwardStep(val, w.end))
  }

  /** A left edge reached from `s0` by backward steps: unchanged, the -1
      sentinel, or the offset of a `{`. */
  predicate LeftEdgeFrom(val: string, s0: int, s: int)
  {
    s == s0 || s == -1 || (0 <= s < |val| && val[s] == '{')
  }

  /** A right edge reached from `e0` by forward steps: unchanged, the -1
      sentinel, or the offset of a `}`. */
  predicate RightEdgeFrom(val: string, e0: int, e: int)
  {
    e == e0 || e == -1 || (0 <= e < |val| && val[e] == '}')
  }

  function Openings(w: Window): nat { Count(w.text, '{') }
  function Closings(w: Window): nat { Count(w.text, '}') }

  /** The steps a counter at `cnt` may still take before it reaches `limit`. */
  function Fuel(cnt: nat, limit: int): nat
  {
    if cnt < limit then limit - cnt else 0
  }

  /** The condition of loop `phase` of `_balance_brackets`: the counts are
      equal (0), `{` outnumber `}` (1), or `}` outnumber `{` (2). */
  predicate Continues(w: Window, phase: nat)
  {
    if phase == 0 then Openings(w) == Closings(w)
    else if phase == 1 then Openings(w) > Closings(w)
    else Openings(w) < Closings(w)
  }

  /** The step of loop `phase`: to the right in the second loop, to the left
      in the other two. */
  function Step(val: string, w: Window, phase: nat): Window
  {
    if phase == 1 then StepRight(val, w) else StepLeft(val, w)
  }

  /** The count-driven walk of `_balance_brackets` entered at loop `phase`
      with the shared counter at `cnt`: each loop steps while its condition
      holds and the counter is below `limit`, one unit of the counter per
      step, then hands over to the next. The result is the window the walk
      stops at and the counter it leaves. */
  function Walk(val: string, w: Window, phase: nat, cnt: nat, limit: int): (res: (Window, nat))
    requires phase <= 2
    ensures cnt <= res.1 && (cnt < limit ==> res.1 <= limit) && (limit <= cnt ==> res.1 == cnt)
    ensures cnt < limit && (phase == 0 || (phase == 1 && Openings(w) != Closings(w)) || Openings(w) < Closings(w)) ==> cnt < res.1
    ensures res.1 == cnt ==> res.0 == w
    ensures res.1 != cnt ==> res.0 == Cut(val, res.0.start, res.0.end)
    ensures -1 <= w.end <= |val| ==> -1 <= res.0.end <= |val|
    decreases Fuel(cnt, limit), 2 - phase
  {
    if Continues(w, phase) && cnt < limit then Walk(val, Step(val, w, phase), phase, cnt + 1, limit)
    else if phase < 2 then Walk(val, w, phase + 1, cnt, limit)
    else (w, cnt)
  }

  /** The walk only ever moves the left edge back to a `{` (or to -1) and the
      right edge on to a `}` (or to -1). */
  lemma {:induction false} WalkEdges(val: string, w: Window, phase: nat, cnt: nat, limit: int)
    requires phase <= 2
    ensures var res := Walk(val, w, phase, cnt, limit);
      LeftEdgeFrom(val, w.start, res.0.start) && RightEdgeFrom(val, w.end, res.0.end)
    decreases Fuel(cnt, limit), 2 - phase
  {
    if Continues(w, phase) && cnt < limit {
      WalkEdges(val, Step(val, w, phase), phase, cnt + 1, limit);
    } else if phase < 2 {
      WalkEdges(val, w, phase + 1, cnt, limit);
    }
  }

  /** A walk that stops with the counter below the limit leaves at least as
      many `{` as `}` in the window: the last loop only gives up once `}` no
      longer outnumber `{`. */
  lemma {:induction false} WalkBalances(val: string, w: Window, phase: nat, cnt: nat, limit: int)
    requires phase <= 2
    ensures Walk(val, w, phase, cnt, limit).1 < limit ==> Openings(Walk(val, w, phase, cnt, limit).0) >= Closings(Walk(val, w, phase, cnt, limit).0)
    decreases Fuel(cnt, limit), 2 - phase
  {
    if Continues(w, phase) && cnt < limit {
      WalkBalances(val, Step(val, w, phase), phase, cnt + 1, limit);
    } else if phase < 2 {
      WalkBalances(val, w, phase + 1, cnt, limit);
    }
  }

  /** Loop `phase` of `_balance_brackets` as written: while its condition
      holds and the counter is below the limit, step the window (recounting
      it) and spend one unit of the counter. The walk from where the loop
      stops is the walk from where it started. */
  method BalanceLoop(val: string, w: Window, cnt: nat, limit: int, phase: nat) returns (r: Window, cnt': nat)
    requires phase <= 2
    ensures cnt <= cnt' && (cnt < limit ==> cnt' <= limit) && (limit <= cnt ==> cnt' == cnt)
    ensures !Continues(r, phase) || limit <= cnt'
    ensures Walk(val, r, phase, cnt', limit) == Walk(val, w, phase, cnt, limit)
  {
    r, cnt' := w, cnt;
    while Continues(r, phase) && cnt' < limit
      invariant cnt <= cnt'
      invariant Walk(val, r, phase, cnt', limit) == Walk(val, w, phase, cnt, limit)
      decreases Fuel(cnt', limit)
    {
      r := Step(val, r, phase);
      cnt' := cnt' + 1;
    }
  }

  /** `_balance_brackets`: widen to the left while the counts are equal, then
      to the right while `{` outnumber `}`, then to the left while `}`
      outnumber `{`, each step costing one unit of the shared counter. The
      three loops take exactly the steps of the walk. */
  method BalanceBrackets(val: string, w: Window, cnt: nat, limit: int) returns (r: Window, cnt': nat)
    ensures (r, cnt') == Walk(val, w, 0, cnt, limit)
    ensures cnt < limit ==> cnt < cnt' <= limit
    ensures cnt' < limit ==> Openings(r) >= Closings(r)
  {
    var r0, c0 := BalanceLoop(val, w, cnt, limit, 0);
    assert Walk(val, r0, 0, c0, limit) == Walk(val, r0, 1, c0, limit);
    var r1, c1 := BalanceLoop(val, r0, c0, limit, 1);
    assert Walk(val, r1, 1, c1, limit) == Walk(val, r1, 2, c1, limit);
    r, cnt' := BalanceLoop(val, r1, c1, limit, 2);
    assert Walk(val, r, 2, cnt', limit) == (r, cnt');
    WalkBalances(val, w, 0, cnt, limit);
  }
}

=== FILE: decode.dfy ===
/**
 * The decode loop of `dict_from_regex`: balance the window cut out of the
 * match, then try `json.loads` on it, balancing again after every failure
 * while the shared counter is below the limit. `json.loads` is a parameter.
 */
module Decoder {
  import opened Wrappers
  import opened Json
  import opened Balance

  /** `json.loads` rejects the empty text, as Python's does. */
  predicate LoadsRejectsEmpty(loads: string -> Option<Json>)
  {
    loads([]) == None
  }

  /** What the decode loop leaves: the decoded value, if any, the window it
      holds and the counter. */
  datatype Decoded = Decoded(value: Option<Json>, window: Window, cnt: nat)

  /** The decode loop (lines 122-127) holding the window `r` with the counter
      at `cnt`: while the counter is below the limit, try to decode the
      window, and balance it again after each failure. */
  function Tries(val: string, r: Window, cnt: nat, limit: int, loads: string -> Option<Json>): (d: Decoded)
    requires LoadsRejectsEmpty(loads)
    requires -1 <= r.end <= |val|
    requires limit <= cnt || r == Cut(val, r.start, r.end)
    ensures cnt <= d.cnt && (cnt < limit ==> d.cnt <= limit)
    ensures limit <= cnt ==> d == Decoded(None, r, cnt)
    ensures d.value.None? ==> limit <= d.cnt
    ensures d.value.Some? ==> loads(d.window.text) == d.value && d.window == Cut(val, d.window.start, d.window.end)
    ensures d.value.Some? ==> 0 <= d.window.end <= |val|
    ensures -1 <= d.window.end <= |val|
    decreases Fuel(cnt, limit)
  {
    if limit <= cnt then Decoded(None, r, cnt)
    else if loads(r.text).Some? then Decoded(loads(r.text), r, cnt)
    else
      var b := Walk(val, r, 0, cnt, limit);
      Tries(val, b.0, b.1, limit, loads)
  }

  /** Lines 121-127: balance the split window once, then run the decode loop.
      A decoded value is what `loads` makes of a window `val[start:end+1]`
      cut out of the text with `end >= 0`; no value means the counter reached
      the limit. */
  function Decode(val: string, w: Window, cnt: nat, limit: int, loads: string -> Option<Json>): (d: Decoded)
    requires LoadsRejectsEmpty(loads)
    requires -1 <= w.end <= |val|
    ensures cnt <= d.cnt && (cnt < limit ==> d.cnt <= limit)
    ensures limit <= cnt ==> d.value.None? && d.cnt == cnt
    ensures d.value.None? ==> limit <= d.cnt
    ensures d.value.Some? ==> loads(d.window.text) == d.value && d.window == Cut(val, d.window.start, d.window.end)
    ensures d.value.Some? ==> 0 <= d.window.end <= |val|
    ensures -1 <= d.window.end <= |val|
  {
    var b := Walk(val, w, 0, cnt, limit);
    Tries(val, b.0, b.1, limit, loads)
  }

  /** Reference definition of the windows the decode loop hands to
      `json.loads`, holding `r` with the counter at `cnt`: `r` itself, then
      the window of every rebalancing, as long as the counter is below the
      limit, whatever `loads` answers. */
  function Tried(val: string, r: Window, cnt: nat, limit: int): (ws: seq<Window>)
    ensures ws == [] <==> limit <= cnt
    ensures ws != [] ==> ws[0] == r
    ensures |ws| <= Fuel(cnt, limit)
    ensures forall k :: 1 <= k < |ws| ==> ws[k] == Cut(val, ws[k].start, ws[k].end)
    decreases Fuel(cnt, limit)
  {
    if limit <= cnt then []
    else
      var b := Walk(val, r, 0, cnt, limit);
      [r] + Tried(val, b.0, b.1, limit)
  }

  /** The windows tried from the split window `w` on: `_balance_brackets`
      runs once before the first `json.loads`. Each of them is a window
      `val[start:end+1]` of the text. */
  function DecodeTried(val: string, w: Window, cnt: nat, limit: int): (ws: seq<Window>)
    ensures limit <= cnt ==> ws == []
    ensures cnt < limit ==> |ws| < Fuel(cnt, limit)
    ensures forall k :: 0 <= k < |ws| ==> ws[k] == Cut(val, ws[k].start, ws[k].end)
  {
    var b := Walk(val, w, 0, cnt, limit);
    Tried(val, b.0, b.1, limit)
  }

  /** The position of the first window `loads` accepts, or `|ws|` when it
      accepts none. */
  function FirstAccepted(ws: seq<Window>, loads: string -> Option<Json>): (k: nat)
    ensures k <= |ws|
    ensures forall j :: 0 <= j < k ==> loads(ws[j].text).None?
    ensures k < |ws| ==> loads(ws[k].text).Some?
  {
    if ws == [] then 0
    else if loads(ws[0].text).Some? then 0
    else 1 + FirstAccepted(ws[1..], loads)
  }

  /** The decode loop stops at the first tried window `loads` accepts, with
      the value `loads` gives it, and finds nothing exactly when `loads`
      accepts none of them. */
  lemma {:induction false} TriesFirstAccepted(val: string, r: Window, cnt: nat, limit: int, loads: string -> Option<Json>)
    requires LoadsRejectsEmpty(loads)
    requires -1 <= r.end <= |val|
    requires limit <= cnt || r == Cut(val, r.start, r.end)
    ensures var d := Tries(val, r, cnt, limit, loads);
      var ws := Tried(val, r, cnt, limit);
      && (d.value.None? <==> FirstAccepted(ws, loads) == |ws|)
      && (d.value.Some? ==> d.window == ws[FirstAccepted(ws, loads)] && d.value == loads(d.window.text))
    decreases Fuel(cnt, limit)
  {
    if cnt < limit && loads(r.text).None? {
      var b := Walk(val, r, 0, cnt, limit);
      TriesFirstAccepted(val, b.0, b.1, limit, loads);
      var ws := Tried(val, r, cnt, limit);
      assert ws[1..] == Tried(val, b.0, b.1, limit);
    }
  }

  /** `Decode` in terms of the windows it tries: no value exactly when
      `loads` rejects every one of them, and otherwise the first window it
      accepts, with its value. */
  lemma DecodeFirstAccepted(val: string, w: Window, cnt: nat, limit: int, loads: string -> Option<Json>)
    requires LoadsRejectsEmpty(loads)
    requires -1 <= w.end <= |val|
    ensures var d := Decode(val, w, cnt, limit, loads);
      var ws := DecodeTried(val, w, cnt, limit);
      && (d.value.None? <==> forall k :: 0 <= k < |ws| ==> loads(ws[k].text).None?)
      && (d.value.Some? ==> FirstAccepted(ws, loads) < |ws| && d.window == ws[FirstAccepted(ws, loads)]
                            && d.value == loads(d.window.text))
  {
    var b := Walk(val, w, 0, cnt, limit);
    TriesFirstAccepted(val, b.0, b.1, limit, loads);
  }

  /** The decode loop only ever moves the window's left edge back to a `{`
      (or to -1) and its right edge on to a `}` (or to -1). */
  lemma {:induction false} TriesEdges(val: string, r: Window, cnt: nat, limit: int, loads: string -> Option<Json>)
    requires LoadsRejectsEmpty(loads)
    requires -1 <= r.end <= |val|
    requires limit <= cnt || r == Cut(val, r.start, r.end)
    ensures var d := Tries(val, r, cnt, limit, loads);
      LeftEdgeFrom(val, r.start, d.window.start) && RightEdgeFrom(val, r.end, d.window.end)
    decreases Fuel(cnt, limit)
  {
    if cnt < limit && loads(r.text).None? {
      var b := Walk(val, r, 0, cnt, limit);
      WalkEdges(val, r, 0, cnt, limit);
      TriesEdges(val, b.0, b.1, limit, loads);
    }
  }

  /** `Decode` moves the edges of the split window the same way. */
  lemma DecodeEdges(val: string, w: Window, cnt: nat, limit: int, loads: string -> Option<Json>)
    requires LoadsRejectsEmpty(loads)
    requires -1 <= w.end <= |val|
    ensures var d := Decode(val, w, cnt, limit, loads);
      LeftEdgeFrom(val, w.start, d.window.start) && RightEdgeFrom(val, w.end, d.window.end)
  {
    var b := Walk(val, w, 0, cnt, limit);
    WalkEdges(val, w, 0, cnt, limit);
    TriesEdges(val, b.0, b.1, limit, loads);
  }

  /** Lines 121-127 as the code runs them: `_balance_brackets` once, then
      `json.loads` on the window while the counter is below the limit,
      balancing again after every failure. This computes `Decode`. */
  method DecodeLoop(val: string, w: Window, cnt: nat, limit: int, loads: string -> Option<Json>) returns (d: Decoded)
    requires LoadsRejectsEmpty(loads)
    requires -1 <= w.end <= |val|
    ensures d == Decode(val, w, cnt, limit, loads)
  {
    var r: Window, c: nat := BalanceBrackets(val, w, cnt, limit);
    assert Decode(val, w, cnt, limit, loads) == Tries(val, r, c, limit, loads);
    while c < limit
      invariant -1 <= r.end <= |val|
      invariant limit <= c || r == Cut(val, r.start, r.end)
      invariant Tries(val, r, c, limit, loads) == Decode(val, w, cnt, limit, loads)
      decreases Fuel(c, limit)
    {
      var v := loads(r.text);
      if v.Some? {
        return Decoded(v, r, c);
      }
      r, c := BalanceBrackets(val, r, c, limit);
    }
    d := Decoded(None, r, c);
  }
}

=== FILE: json.dfy ===
/** Decoded JSON values, as `json.loads` hands them to the retriever. */
module Json {

  /** A JSON value. An object keeps its members in the order the dict's
      `items()` yields them; numbers are kept as reals (no NaN or infinities). */
  datatype Json =
    | Null
    | Bool(b: bool)
    | Num(n: real)
    | Str(s: string)
    | Arr(items: seq<Json>)
    | Obj(fields: seq<(string, Json)>)

  /** The empty object `{}`: the retriever's "no result". */
  const Empty: Json := Obj([])

  /** Python truthiness of a decoded value (`if not ret`). */
  predicate Truthy(j: Json)
  {
    match j
    case Null => false
    case Bool(b) => b
    case Num(n) => n != 0.0
    case Str(s) => s != []
    case Arr(items) => items != []
    case Obj(fields) => fields != []
  }
}

=== FILE: keys.dfy ===
/**
 * The required keys of a retriever and the per-key matching done on them.
 * A key is matched as a literal substring; its first match is the first
 * occurrence of that substring.
 */
module Keys {
  import opened PyStr

  /** The keys a retriever is built from: construction refuses fewer than two. */
  type KeyList = k: seq<string> | |k| >= 2 witness ["", ""]

  /** Every key matches somewhere in `s`. */
  ghost predicate AllMatch(keys: seq<string>, s: string)
  {
    forall i :: 0 <= i < |keys| ==> Contains(s, keys[i])
  }

  function MatchRest(keys: seq<string>, s: string, i: nat): (b: bool)
    requires i <= |keys|
    ensures b <==> forall k :: i <= k < |keys| ==> Contains(s, keys[k])
    decreases |keys| - i
  {
    if i == |keys| then true
    else if !Contains(s, keys[i]) then false
    else MatchRest(keys, s, i + 1)
  }

  /** The test applied to a serialised node: the first key must match, then
      each remaining key in turn, stopping at the first that does not. */
  function MatchesAll(keys: KeyList, s: string): (b: bool)
    ensures b <==> AllMatch(keys, s)
  {
    Contains(s, keys[0]) && MatchRest(keys, s, 1)
  }

  /** The first-match offsets of the keys that match `val`, in key order. */
  function FoundStarts(keys: seq<string>, val: string): (r: seq<nat>)
    ensures |r| <= |keys|
    ensures |r| == |keys| <==> AllMatch(keys, val)
    ensures |r| == |keys| ==> forall i :: 0 <= i < |keys| ==> r[i] == FirstOccurrence(val, keys[i])
  {
    if keys == [] then []
    else
      var f := FirstOccurrence(val, keys[0]);
      var rest := FoundStarts(keys[1..], val);
      assert AllMatch(keys, val) <==> Contains(val, keys[0]) && AllMatch(keys[1..], val) by {
        if Contains(val, keys[0]) && AllMatch(keys[1..], val) {
          forall i | 0 <= i < |keys| ensures Contains(val, keys[i]) {
            if i > 0 { assert keys[i] == keys[1..][i - 1]; }
          }
        }
      }
      if f >= 0 then
        assert forall i :: 1 <= i < |keys| ==> keys[i] == keys[1..][i - 1];
        [f as nat] + rest
      else rest
  }

  /** `max(seq)` of a non-empty sequence. */
  function Max(s: seq<int>): (m: int)
    requires |s| > 0
    ensures exists i :: 0 <= i < |s| && m == s[i]
    ensures forall i :: 0 <= i < |s| ==> s[i] <= m
  {
    if |s| == 1 then s[0]
    else
      var m' := Max(s[1..]);
      assert forall i :: 1 <= i < |s| ==> s[i] == s[1..][i - 1];
      if s[0] >= m' then s[0] else m'
  }

  /** The greatest of the keys' first-match offsets in `val`. */
  function LastKey(keys: KeyList, val: string): (lk: nat)
    requires AllMatch(keys, val)
    ensures forall i :: 0 <= i < |keys| ==> FirstOccurrence(val, keys[i]) <= lk
    ensures exists i :: 0 <= i < |keys| && lk == FirstOccurrence(val, keys[i])
    ensures lk <= |val|
    ensures lk < |val| || |val| == 0
  {
    var starts := FoundStarts(keys, val);
    var lk := Max(starts);
    var i :| 0 <= i < |keys| && lk == FirstOccurrence(val, keys[i]);
    assert lk < |val| || |val| == 0 by {
      assert OccursAt(val, keys[i], lk);
    }
    lk
  }
}

=== FILE: patterns.dfy ===
/**
 * The fixed patterns of the retriever: the combined lookahead pattern it
 * builds from the keys, the separator `\W+{` it splits a match on, and the
 * `{\W+` it searches for in the reversed prefix of a text. Only the two
 * separator patterns are matched here; the combined pattern is built as
 * text and its matching is left to the caller.
 */
module Patterns {
  import opened Wrappers
  import opened PyStr

  const PatternHead: string := "{\"[^{]*"
  const PatternTail: string := ".+?}"

  /** `(?=.*key)` */
  function Lookahead(key: string): string
  {
    "(?=.*" + key + ")"
  }

  /** The lookahead groups of `keys`, in key order. */
  function Lookaheads(keys: seq<string>): string
  {
    if keys == [] then "" else Lookahead(keys[0]) + Lookaheads(keys[1..])
  }

  /** Offset of the lookahead group of `keys[i]` inside `Lookaheads(keys)`. */
  function GroupOffset(keys: seq<string>, i: nat): nat
    requires i <= |keys|
  {
    if i == 0 then 0 else |Lookahead(keys[0])| + GroupOffset(keys[1..], i - 1)
  }

  lemma {:induction false} LookaheadsContainGroup(keys: seq<string>, i: nat)
    requires i < |keys|
    ensures OccursAt(Lookaheads(keys), Lookahead(keys[i]), GroupOffset(keys, i))
    decreases i
  {
    var rest := Lookaheads(keys[1..]);
    assert Lookaheads(keys) == Lookahead(keys[0]) + rest;
    if i == 0 {
      assert Lookaheads(keys)[..|Lookahead(keys[0])|] == Lookahead(keys[0]);
    } else {
      LookaheadsContainGroup(keys[1..], i - 1);
      var off := GroupOffset(keys[1..], i - 1);
      var g := Lookahead(keys[i]);
      assert keys[1..][i - 1] == keys[i];
      assert rest[off..off + |g|] == g;
      var n := |Lookahead(keys[0])|;
      assert Lookaheads(keys)[n + off..n + off + |g|] == rest[off..off + |g|];
    }
  }

  /** The pattern text built at construction: `{"[^{]*`, one `(?=.*key)` per
      key in order, then `.+?}`. */
  function CombinedPattern(keys: seq<string>): (p: string)
    ensures |p| >= |PatternHead| + |PatternTail|
    ensures p[..|PatternHead|] == PatternHead
    ensures p[|p| - |PatternTail|..] == PatternTail
  {
    PatternHead + Lookaheads(keys) + PatternTail
  }

  /** Every key appears literally in the combined pattern, inside its own
      lookahead group: the group of `keys[i]` sits at its offset after the
      head, and the key follows the group's `(?=.*` opening. */
  lemma CombinedPatternNamesEveryKey(keys: seq<string>, i: nat)
    requires i < |keys|
    ensures OccursAt(CombinedPattern(keys), Lookahead(keys[i]), |PatternHead| + GroupOffset(keys, i))
    ensures OccursAt(CombinedPattern(keys), keys[i], |PatternHead| + GroupOffset(keys, i) + |"(?=.*"|)
    ensures Contains(CombinedPattern(keys), keys[i])
  {
    var g := Lookahead(keys[i]);
    var base := |PatternHead| + GroupOffset(keys, i);
    LookaheadsContainGroup(keys, i);
    OccursInMiddle(PatternHead, Lookaheads(keys), PatternTail, g, GroupOffset(keys, i));
    assert g == "(?=.*" + keys[i] + ")";
    OccursInMiddle("(?=.*", keys[i], ")", keys[i], 0);
    OccursWithin(CombinedPattern(keys), g, keys[i], base, |"(?=.*"|);
  }

  /** A `{` at index `k` of `s` directly preceded by a `\W` character: where
      `\W+{` can end. */
  predicate SeparatedBrace(s: string, k: int)
  {
    1 <= k < |s| && s[k] == '{' && !IsWord(s[k - 1])
  }

  function SplitFrom(s: string, i: nat): (r: Option<nat>)
    requires i <= |s|
    ensures r.None? ==> forall k :: i < k < |s| ==> !SeparatedBrace(s, k)
    ensures r.Some? ==> i + 2 <= r.value <= |s| && SeparatedBrace(s, r.value - 1)
    decreases |s| - i
  {
    if i == |s| then None
    else if IsWord(s[i]) then SplitFrom(s, i + 1)
    else
      var k := LastIndexBefore(s, '{', i + 1, NonWordRunEnd(s, i));
      if k >= 0 then Some(k + 1) else SplitFrom(s, i + 1)
  }

  /** `re.split(r'\W+{', s, 1)`: the index where the second piece begins, that
      is just after the `{` of the leftmost (greedy) match, or None when the
      pattern does not occur. */
  function SplitRemoveWord(s: string): (r: Option<nat>)
    ensures r.None? <==> forall k :: 0 <= k < |s| ==> !SeparatedBrace(s, k)
    ensures r.Some? ==> 2 <= r.value <= |s| && SeparatedBrace(s, r.value - 1)
  {
    SplitFrom(s, 0)
  }

  /** In a reversed text `r`, a `{` at `i` followed by a `\W` character, or,
      when `atEnd` holds, by the end of `r`. With `atEnd` false this is
      where `{\W+` can start. */
  predicate OpenAt(r: string, i: int, atEnd: bool)
  {
    0 <= i < |r| && r[i] == '{' && ((i + 1 < |r| && !IsWord(r[i + 1])) || (atEnd && i + 1 == |r|))
  }

  function OpenSearchFrom(r: string, atEnd: bool, i: nat): (m: Option<(nat, nat)>)
    requires i <= |r|
    ensures m.None? ==> forall k :: i <= k < |r| ==> !OpenAt(r, k, atEnd)
    ensures m.Some? ==> i <= m.value.0 && OpenAt(r, m.value.0, atEnd)
    ensures m.Some? ==> m.value.0 < m.value.1 <= |r| && m.value.1 == NonWordRunEnd(r, m.value.0 + 1)
    ensures m.Some? ==> forall k :: i <= k < m.value.0 ==> !OpenAt(r, k, atEnd)
    decreases |r| - i
  {
    if i == |r| then None
    else if OpenAt(r, i, atEnd) then Some((i, NonWordRunEnd(r, i + 1)))
    else OpenSearchFrom(r, atEnd, i + 1)
  }

  /** `re.search(r'{\W+', r)` as (start, end) of the leftmost greedy match;
      with `atEnd` also a `{` that is the last character of `r`. */
  function OpenSearch(r: string, atEnd: bool): (m: Option<(nat, nat)>)
    ensures m.None? <==> forall k :: 0 <= k < |r| ==> !OpenAt(r, k, atEnd)
    ensures m.Some? ==> OpenAt(r, m.value.0, atEnd) && forall k :: 0 <= k < m.value.0 ==> !OpenAt(r, k, atEnd)
    ensures m.Some? ==> m.value.0 < m.value.1 <= |r| && m.value.1 == NonWordRunEnd(r, m.value.0 + 1)
    ensures m.Some? && !atEnd ==> m.value.0 + 2 <= m.value.1
  {
    OpenSearchFrom(r, atEnd, 0)
  }
}

=== FILE: prefilter.dfy ===
/**
 * The pre-filter that narrows a text to a window before the combined
 * pattern is run: the latest first-match offset of the keys, a `{` before it
 * found by searching the reversed prefix, and the first `}` from it.
 */
module Prefilter {
  import opened Wrappers
  import opened PyStr
  import opened Patterns
  import opened Keys

  /** `val[lk::-1]`: the prefix of `val` up to and including index `lk`, reversed. */
  function RevPrefix(val: string, lk: nat): (r: string)
    ensures |r| == (if lk < |val| then lk + 1 else |val|)
    ensures forall t :: 0 <= t < |r| ==> r[t] == val[|r| - 1 - t]
  {
    Reverse(val[..if lk < |val| then lk + 1 else |val|])
  }

  /** A `{` at index `b` of `val` right after a `\W` character, or, when
      `atStart` holds, at the very start of `val`. */
  predicate OpenBrace(val: string, b: int, atStart: bool)
  {
    0 <= b < |val| && val[b] == '{' && ((1 <= b && !IsWord(val[b - 1])) || (atStart && b == 0))
  }

  ghost predicate HasOpenBefore(val: string, lk: nat, atStart: bool)
  {
    exists b :: 0 <= b <= lk && OpenBrace(val, b, atStart)
  }

  ghost predicate HasCloseFrom(val: string, lk: nat)
  {
    exists k :: lk <= k < |val| && val[k] == '}'
  }

  /** Searching the reversed prefix up to `lk` for `{\W+` (or, with `atStart`,
      also a `{` at the start of the text) finds the qualifying `{` nearest to
      `lk`, at index `lk - t` of the text, and the greedy `\W` run before it
      reaches back to just after index `lk - end`. */
  lemma {:induction false} ReversedSearch(val: string, lk: nat, atStart: bool, m: Option<(nat, nat)>)
    requires lk < |val| || |val| == 0
    requires m == OpenSearch(RevPrefix(val, lk), atStart)
    ensures
      && (m.None? <==> !HasOpenBefore(val, lk, atStart))
      && (m.Some? ==>
        var b, s := lk - m.value.0, lk - m.value.1;
        && -1 <= s < b <= lk
        && OpenBrace(val, b, atStart)
        && (!atStart ==> s + 2 <= b)
        && (forall x :: b < x <= lk ==> !OpenBrace(val, x, atStart))
        && (forall k :: s < k < b ==> !IsWord(val[k]))
        && (0 <= s ==> IsWord(val[s])))
  {
    var r := RevPrefix(val, lk);
    if |val| == 0 {
      return;
    }
    assert |r| == lk + 1;
    // index t of the reversed text is index lk - t of the text
    forall t | 0 <= t < |r|
      ensures OpenAt(r, t, atStart) <==> OpenBrace(val, lk - t, atStart)
    {
      assert r[t] == val[lk - t];
      if t + 1 < |r| { assert r[t + 1] == val[lk - t - 1]; }
    }
    if m.None? {
      forall b | 0 <= b <= lk
        ensures !OpenBrace(val, b, atStart)
      {
        assert !OpenAt(r, lk - b, atStart);
      }
    } else {
      var (t, end) := m.value;
      assert OpenBrace(val, lk - t, atStart);
      forall x | lk - t < x <= lk
        ensures !OpenBrace(val, x, atStart)
      {
        assert !OpenAt(r, lk - x, atStart);
      }
      forall k | lk - end < k < lk - t
        ensures !IsWord(val[k])
      {
        assert r[lk - k] == val[k];
        assert !IsWord(r[lk - k]);
      }
      if 0 <= lk - end {
        assert r[end] == val[lk - end];
      }
    }
  }

  /** `last_key - re.search(r'{\W+', val[last_key::-1]).end()` together with
      the index of the `{` that search found, or None when it finds nothing. */
  function LeftEdge(val: string, lk: nat, atStart: bool): (r: Option<(int, nat)>)
    requires lk < |val| || |val| == 0
    ensures r.None? <==> !HasOpenBefore(val, lk, atStart)
    ensures r.Some? ==> -1 <= r.value.0 < r.value.1 <= lk && r.value.1 < |val|
    ensures r.Some? ==> OpenBrace(val, r.value.1, atStart)
    ensures r.Some? && !atStart ==> r.value.0 + 2 <= r.value.1
    ensures r.Some? ==> forall k :: r.value.0 < k < r.value.1 ==> !IsWord(val[k])
    ensures r.Some? && 0 <= r.value.0 ==> IsWord(val[r.value.0])
  {
    var m := OpenSearch(RevPrefix(val, lk), atStart);
    ReversedSearch(val, lk, atStart, m);
    if m.None? then None else Some((lk - m.value.1, lk - m.value.0))
  }

  /** The `{` the left-edge search settles on is the qualifying one nearest to
      the key offset: none lies between it and `lk`. */
  lemma LeftEdgeIsNearest(val: string, lk: nat, atStart: bool)
    requires lk < |val| || |val| == 0
    ensures var r := LeftEdge(val, lk, atStart);
      r.Some? ==> forall x :: r.value.1 < x <= lk ==> !OpenBrace(val, x, atStart)
  {
    ReversedSearch(val, lk, atStart, OpenSearch(RevPrefix(val, lk), atStart));
  }

  /** `last_key + re.search('}', val[last_key:]).end()`, or -1 when there is
      no `}` from `lk` on. */
  function RightEdge(val: string, lk: nat): (e: int)
    ensures e == -1 <==> !HasCloseFrom(val, lk)
    ensures e != -1 ==> lk < e <= |val| && val[e - 1] == '}'
    ensures e != -1 ==> forall k :: lk <= k < e - 1 ==> val[k] != '}'
  {
    var close := IndexFrom(val, '}', lk);
    if close >= 0 then close + 1 else -1
  }

  /** `_truncate_for_speedup` as written: `(-1, -1)` unless every key matches,
      a `{` preceded by `\W` lies at or before the latest first match, and a
      `}` follows it; otherwise the window `(s, e)` around that match, whose
      left edge may be -1. */
  function TruncateForSpeedup(keys: KeyList, val: string): (r: (int, int))
    ensures r.1 == -1 ==> r.0 == -1
    ensures r.1 != -1 <==>
      AllMatch(keys, val) && HasOpenBefore(val, LastKey(keys, val), false) && HasCloseFrom(val, LastKey(keys, val))
    ensures r.1 != -1 ==>
      && AllMatch(keys, val) && LeftEdge(val, LastKey(keys, val), false).Some?
      && r == (LeftEdge(val, LastKey(keys, val), false).value.0, RightEdge(val, LastKey(keys, val)))
      && -1 <= r.0 < LastKey(keys, val) < r.1 <= |val|
  {
    if |FoundStarts(keys, val)| == |keys| then
      var lk := LastKey(keys, val);
      var left := LeftEdge(val, lk, false);
      var e := RightEdge(val, lk);
      if left.Some? && e != -1 then (left.value.0, e) else (-1, -1)
    else
      (-1, -1)
  }

  /** The pre-filter with its left edge kept inside the text: a `{` at the
      very start of the text also qualifies, and a left edge that would fall
      before the text is clamped to 0. The window is then an ordinary slice
      that still holds the `{` it was built around. */
  function TruncateForSpeedupFixed(keys: KeyList, val: string): (r: (int, int))
    ensures r.1 == -1 ==> r.0 == -1
    ensures r.1 != -1 <==>
      AllMatch(keys, val) && HasOpenBefore(val, LastKey(keys, val), true) && HasCloseFrom(val, LastKey(keys, val))
    ensures r.1 != -1 ==>
      && AllMatch(keys, val) && LeftEdge(val, LastKey(keys, val), true).Some?
      && 0 <= r.0 <= LeftEdge(val, LastKey(keys, val), true).value.1 <= LastKey(keys, val) < r.1 <= |val|
      && r.1 == RightEdge(val, LastKey(keys, val))
    ensures r.1 != -1 ==> 0 <= r.0 < r.1 <= |val| && Slice(val, r.0, r.1) == val[r.0..r.1]
  {
    if |FoundStarts(keys, val)| == |keys| then
      var lk := LastKey(keys, val);
      var left := LeftEdge(val, lk, true);
      var e := RightEdge(val, lk);
      if left.Some? && e != -1 then ((if left.value.0 < 0 then 0 else left.value.0), e) else (-1, -1)
    else
      (-1, -1)
  }

  /** The shape of a pre-filter's answer for a text of length `n`: no window
      exactly when the right edge is -1, and otherwise a window inside the
      text whose right edge is past offset 0. */
  predicate Shaped(r: (int, int), n: nat)
  {
    && (r.1 == -1 ==> r.0 == -1)
    && (r.1 != -1 ==> -1 <= r.0 < r.1 <= n && 0 < r.1)
  }

  /** What the retriever needs of the pre-filter it runs. */
  ghost predicate PrefilterShaped(truncate: (KeyList, string) -> (int, int))
  {
    forall keys: KeyList, val: string :: Shaped(truncate(keys, val), |val|)
  }

  /** Both pre-filters answer in that shape; only the corrected one never
      returns a left edge of -1 with a window. */
  lemma PrefiltersShaped()
    ensures PrefilterShaped(TruncateForSpeedup) && PrefilterShaped(TruncateForSpeedupFixed)
    ensures forall keys: KeyList, val: string :: TruncateForSpeedupFixed(keys, val).1 != -1 ==> 0 <= TruncateForSpeedupFixed(keys, val).0
  {
  }

  /** When the qualifying `{` nearest the last key is preceded by nothing but
      `\W` characters back to the start of the text, the as-written left edge
      is -1, and Python reads the window `val[-1:e]` as at most the last
      character of the text. */
  lemma LeftEdgeWrapsAtTextStart(keys: KeyList, val: string, b: nat)
    requires AllMatch(keys, val) && HasCloseFrom(val, LastKey(keys, val))
    requires b <= LastKey(keys, val) && OpenBrace(val, b, false)
    requires forall x :: b < x <= LastKey(keys, val) ==> !OpenBrace(val, x, false)
    requires forall k :: 0 <= k < b ==> !IsWord(val[k])
    ensures TruncateForSpeedup(keys, val).0 == -1
    ensures var e := TruncateForSpeedup(keys, val).1;
      Slice(val, -1, e) == if e == |val| then [val[|val| - 1]] else []
  {
    var lk := LastKey(keys, val);
    var left := LeftEdge(val, lk, false);
    LeftEdgeIsNearest(val, lk, false);
    assert left.Some?;
    assert left.value.1 == b;
    assert left.value.0 == -1;
    assert TruncateForSpeedup(keys, val) == (-1, RightEdge(val, lk));
  }

  /** A text that opens with its object has no character before the `{`, so
      the as-written pre-filter finds no left edge, while the corrected one
      keeps the window from offset 0. */
  lemma ObjectAtTextStartSkipped(keys: KeyList, val: string)
    requires AllMatch(keys, val) && HasCloseFrom(val, LastKey(keys, val))
    requires |val| > 0 && val[0] == '{'
    requires forall x :: 0 < x <= LastKey(keys, val) ==> val[x] != '{'
    ensures TruncateForSpeedup(keys, val) == (-1, -1)
    ensures TruncateForSpeedupFixed(keys, val).0 == 0
    ensures TruncateForSpeedupFixed(keys, val).1 == RightEdge(val, LastKey(keys, val)) > 0
  {
    assert OpenBrace(val, 0, true);
  }

  const SampleKeys: KeyList := ["\"a\"", "\"b\""]
  const SampleText: string := " {\"x\":0,\"a\":1,\"b\":2}"

  /** `val` spells `SampleText` from offset `from` on. */
  predicate SpellsSample(val: string, from: nat)
  {
    from <= |SampleText| && |val| == |SampleText| - from
    && forall i :: 0 <= i < |val| ==> val[i] == SampleText[i + from]
  }

  /** A key spelled out character by character occurs there. */
  lemma SpelledOccurs(s: string, key: string, i: nat)
    requires i + |key| <= |s| && forall j :: 0 <= j < |key| ==> s[i + j] == key[j]
    ensures OccursAt(s, key, i)
  {
    assert s[i..i + |key|] == key;
  }

  /** The characters of the sample text from offset `from` on. */
  lemma SampleChars(val: string, from: nat)
    requires from <= 1 && SpellsSample(val, from)
    ensures |val| == 20 - from
    ensures val[1 - from] == '{' && val[19 - from] == '}'
    ensures val[2 - from] == '"' && val[3 - from] == 'x' && val[4 - from] == '"' && val[5 - from] == ':'
    ensures val[6 - from] == '0' && val[7 - from] == ',' && val[8 - from] == '"' && val[9 - from] == 'a'
    ensures val[10 - from] == '"' && val[11 - from] == ':' && val[12 - from] == '1' && val[13 - from] == ','
    ensures val[14 - from] == '"' && val[15 - from] == 'b' && val[16 - from] == '"' && val[17 - from] == ':'
    ensures val[18 - from] == '2'
    ensures from == 0 ==> val[0] == ' '
  {
    assert SampleText[1] == '{' && SampleText[19] == '}' && SampleText[0] == ' ';
  }

  /** In the sample text (from offset `from` on), the keys first occur at
      `8 - from` and `14 - from`. */
  lemma SampleLastKey(val: string, from: nat)
    requires from <= 1 && SpellsSample(val, from)
    ensures AllMatch(SampleKeys, val) && LastKey(SampleKeys, val) == 14 - from
  {
    SampleChars(val, from);
    var ka, kb := SampleKeys[0], SampleKeys[1];
    assert |ka| == 3 && ka[0] == '"' && ka[1] == 'a' && ka[2] == '"';
    assert |kb| == 3 && kb[0] == '"' && kb[1] == 'b' && kb[2] == '"';
    SpelledOccurs(val, ka, 8 - from);
    SpelledOccurs(val, kb, 14 - from);
    forall k | 0 <= k < 14 - from
      ensures !OccursAt(val, kb, k)
    {
      assert val[k..k + 3][1] == val[k + 1] != kb[1];
    }
    assert FirstOccurrence(val, kb) == 14 - from;
    assert FirstOccurrence(val, ka) <= 8 - from;
    assert AllMatch(SampleKeys, val);
  }

  /** Where the braces of the spaced sample text are. */
  lemma SampleBraces(val: string)
    requires SpellsSample(val, 0)
    ensures HasCloseFrom(val, 14) && OpenBrace(val, 1, false) && !IsWord(val[0])
    ensures forall x :: 1 < x <= 14 ==> !OpenBrace(val, x, false)
    ensures val[19] == '}' && forall k :: 14 <= k < 19 ==> val[k] != '}'
  {
    SampleChars(val, 0);
  }

  /** Where the braces of the unspaced sample text are. */
  lemma SampleBracesAtStart(val: string)
    requires SpellsSample(val, 1)
    ensures |val| > 0 && val[0] == '{' && HasCloseFrom(val, 13)
    ensures forall x :: 0 < x <= 13 ==> val[x] != '{'
    ensures val[18] == '}' && forall k :: 13 <= k < 18 ==> val[k] != '}'
  {
    SampleChars(val, 1);
  }

  /** The object `{"x":0,"a":1,"b":2}` behind one space, searched for the keys
      `"a"` and `"b"`: the as-written left edge is -1 and the window is at
      most the closing `}`. */
  lemma SampleTextWraps(val: string)
    requires SpellsSample(val, 0)
    ensures TruncateForSpeedup(SampleKeys, val).0 == -1
    ensures TruncateForSpeedup(SampleKeys, val).1 == |val|
    ensures Slice(val, -1, |val|) == "}"
  {
    SampleLastKey(val, 0);
    SampleBraces(val);
    LeftEdgeWrapsAtTextStart(SampleKeys, val, 1);
    assert RightEdge(val, 14) == |val|;
  }

  /** The same object at offset 0 is not found by the as-written pre-filter;
      the corrected one keeps the whole object as its window. */
  lemma SampleObjectAtStartSkipped(val: string)
    requires SpellsSample(val, 1)
    ensures TruncateForSpeedup(SampleKeys, val) == (-1, -1)
    ensures TruncateForSpeedupFixed(SampleKeys, val) == (0, |val|)
  {
    SampleLastKey(val, 1);
    SampleBracesAtStart(val);
    ObjectAtTextStartSkipped(SampleKeys, val);
    assert RightEdge(val, 13) == |val|;
  }
}

=== FILE: pystr.dfy ===
/**
 * The Python `str` primitives the retriever leans on, with CPython's rules
 * for negative and out-of-range indices written out: slicing, `find`,
 * `rfind`, `count`, reversal, and first-occurrence search of a literal key.
 */
module PyStr {

  /** Python's normalisation of a slice or search bound `i` against a length `n`:
      a negative bound counts from the end, and the result is clamped to [0, n]. */
  function Clamp(i: int, n: nat): (r: nat)
    ensures r <= n
    ensures 0 <= i ==> r == (if i <= n then i else n)
    ensures i < 0 ==> r == (if 0 <= n + i then n + i else 0)
  {
    if i < 0 then (if i + n < 0 then 0 else i + n) else if i > n then n else i
  }

  /** `s[a:b]` */
  function Slice(s: string, a: int, b: int): (r: string)
    ensures |r| == (if Clamp(a, |s|) < Clamp(b, |s|) then Clamp(b, |s|) - Clamp(a, |s|) else 0)
    ensures forall k :: 0 <= k < |r| ==> r[k] == s[Clamp(a, |s|) + k]
  {
    var lo := Clamp(a, |s|);
    var hi := Clamp(b, |s|);
    if lo < hi then s[lo..hi] else []
  }

  /** Between in-range bounds, `s[a:b]` is the ordinary slice. */
  lemma SliceInRange(s: string, a: int, b: int)
    requires 0 <= a <= b <= |s|
    ensures Slice(s, a, b) == s[a..b]
  {
  }

  /** A slice of the text from offset `c` on is a slice of the whole text. */
  lemma SliceOfRest(val: string, c: nat, a: int, b: int)
    requires c <= |val|
    ensures Slice(Slice(val, c, |val|), a, b) == Slice(val, c + Clamp(a, |val| - c), c + Clamp(b, |val| - c))
  {
    SliceInRange(val, c, |val|);
    assert val[c..|val|] == val[c..];
    SliceNormal(val[c..], a, b);
    SliceShift(val, c, Clamp(a, |val| - c), Clamp(b, |val| - c));
  }

  /** Python normalises the bounds of `s[a:b]` before slicing. */
  lemma SliceNormal(s: string, a: int, b: int)
    ensures Slice(s, a, b) == Slice(s, Clamp(a, |s|), Clamp(b, |s|))
  {
    assert Clamp(Clamp(a, |s|), |s|) == Clamp(a, |s|);
    assert Clamp(Clamp(b, |s|), |s|) == Clamp(b, |s|);
  }

  /** A slice of `val[c:]` between in-range bounds is the slice of `val`
      shifted by `c`. */
  lemma SliceShift(val: string, c: nat, lo: nat, hi: nat)
    requires c + lo <= |val| && c + hi <= |val|
    ensures Slice(val[c..], lo, hi) == Slice(val, c + lo, c + hi)
  {
    if lo < hi {
      assert val[c..][lo..hi] == val[c + lo..c + hi];
    }
  }

  /** The least index `k >= i` with `s[k] == c`, or -1. */
  function IndexFrom(s: string, c: char, i: nat): (r: int)
    ensures r == -1 || (i <= r < |s| && s[r] == c)
    ensures forall k :: i <= k < |s| && (r == -1 || k < r) ==> s[k] != c
    decreases |s| - i
  {
    if i >= |s| then -1 else if s[i] == c then i else IndexFrom(s, c, i + 1)
  }

  /** The greatest index `k` with `lo <= k < hi` and `s[k] == c`, or -1. */
  function LastIndexBefore(s: string, c: char, lo: nat, hi: nat): (r: int)
    requires hi <= |s|
    ensures r == -1 || (lo <= r < hi && s[r] == c)
    ensures forall k :: lo <= k < hi && r < k ==> s[k] != c
    decreases hi
  {
    if hi <= lo then -1
    else if s[hi - 1] == c then hi - 1
    else LastIndexBefore(s, c, lo, hi - 1)
  }

  /** `s.find(c, start)` */
  function Find(s: string, c: char, start: int): (r: int)
    ensures r == -1 || (Clamp(start, |s|) <= r < |s| && s[r] == c)
    ensures forall k :: Clamp(start, |s|) <= k < |s| && (r == -1 || k < r) ==> s[k] != c
  {
    IndexFrom(s, c, Clamp(start, |s|))
  }

  /** `s.rfind(c, lo, hi)` */
  function RFind(s: string, c: char, lo: int, hi: int): (r: int)
    ensures r == -1 || (Clamp(lo, |s|) <= r < Clamp(hi, |s|) && s[r] == c)
    ensures forall k :: Clamp(lo, |s|) <= k < Clamp(hi, |s|) && r < k ==> s[k] != c
  {
    LastIndexBefore(s, c, Clamp(lo, |s|), Clamp(hi, |s|))
  }

  /** `s.count(c)` for a one-character `c`: how many characters of `s` are `c`. */
  function Count(s: string, c: char): (n: nat)
    ensures n <= |s|
  {
    if s == [] then 0
    else (if s[0] == c then 1 else 0) + Count(s[1..], c)
  }

  /** `s.count(c)` is the multiplicity of `c` in `s`. */
  lemma {:induction false} CountIsMultiplicity(s: string, c: char)
    ensures Count(s, c) == multiset(s)[c]
  {
    if s != [] {
      assert s == [s[0]] + s[1..];
      CountIsMultiplicity(s[1..], c);
    }
  }

  /** `s[::-1]` */
  function Reverse(s: string): (r: string)
    ensures |r| == |s|
    ensures forall k :: 0 <= k < |s| ==> r[k] == s[|s| - 1 - k]
  {
    seq(|s|, k requires 0 <= k < |s| => s[|s| - 1 - k])
  }

  /** Characters matched by `\w` in a pattern without the UNICODE flag. */
  predicate IsWord(c: char)
  {
    ('a' <= c <= 'z') || ('A' <= c <= 'Z') || ('0' <= c <= '9') || c == '_'
  }

  /** The end of the run of `\W` characters that starts at `i`. */
  function NonWordRunEnd(s: string, i: nat): (j: nat)
    requires i <= |s|
    ensures i <= j <= |s|
    ensures j == |s| || IsWord(s[j])
    ensures forall k :: i <= k < j ==> !IsWord(s[k])
    decreases |s| - i
  {
    if i == |s| || IsWord(s[i]) then i else NonWordRunEnd(s, i + 1)
  }

  /** The literal `sub` occurs in `s` at index `i`. */
  predicate OccursAt(s: string, sub: string, i: int)
  {
    0 <= i && i + |sub| <= |s| && s[i..i + |sub|] == sub
  }

  /** An occurrence inside the middle of a concatenation. */
  lemma OccursInMiddle(a: string, b: string, c: string, sub: string, i: int)
    requires OccursAt(b, sub, i)
    ensures OccursAt(a + b + c, sub, |a| + i)
  {
    var s := a + b + c;
    assert s[|a| + i..|a| + i + |sub|] == b[i..i + |sub|];
  }

  /** An occurrence inside an occurrence. */
  lemma OccursWithin(s: string, g: string, sub: string, i: int, j: int)
    requires OccursAt(s, g, i) && OccursAt(g, sub, j)
    ensures OccursAt(s, sub, i + j)
  {
    forall k | 0 <= k < |sub|
      ensures s[i + j + k] == sub[k]
    {
      assert s[i + j + k] == s[i..i + |g|][j + k] == g[j..j + |sub|][k];
    }
    assert s[i + j..i + j + |sub|] == sub;
  }

  /** The least index `k >= i` where `sub` occurs in `s`, or -1. */
  function SubIndexFrom(s: string, sub: string, i: nat): (r: int)
    ensures r == -1 || (i <= r && OccursAt(s, sub, r))
    ensures forall k :: i <= k && (r == -1 || k < r) ==> !OccursAt(s, sub, k)
    decreases |s| - i
  {
    if i + |sub| > |s| then -1
    else if s[i..i + |sub|] == sub then i
    else SubIndexFrom(s, sub, i + 1)
  }

  /** `re.search(key, s).start()` for a literal key, or -1 when it does not match. */
  function FirstOccurrence(s: string, key: string): (r: int)
    ensures r == -1 || OccursAt(s, key, r)
    ensures forall k :: (r == -1 || k < r) ==> !OccursAt(s, key, k)
  {
    SubIndexFrom(s, key, 0)
  }

  /** `key` matches somewhere in `s`. */
  predicate Contains(s: string, key: string)
  {
    FirstOccurrence(s, key) != -1
  }
}

=== FILE: retriever.dfy ===
/**
 * The retriever itself: construction from the keys, the single extraction
 * step `dict_from_regex` (pre-filter, combined-pattern search, bracket
 * balancing, decoding, sub-document search) and the iteration over a text.
 *
 * The combined pattern's `search`, `json.loads` and `json.dumps` are passed
 * in as functions, and so is the pre-filter: `TruncateForSpeedup` is
 * `_truncate_for_speedup` as written, `TruncateForSpeedupFixed` its
 * corrected version.
 */
module Retriever {
  import opened Wrappers
  import opened PyStr
  import opened Json
  import opened Keys
  import opened Patterns
  import opened Prefilter
  import opened Balance
  import opened Subdict
  import opened Decoder

  /** The exception the retriever raises. */
  datatype Error = TypeError(message: string)

  /** A match of the combined pattern: `text[start:end]`. */
  datatype Span = Span(start: nat, end: nat)

  /** What a search of the combined pattern over a text `s` may return: a
      match inside `s` of at least four characters, since the pattern needs
      `{"`, one character for `.+?` and the closing `}`. */
  ghost predicate SearchWellFormed(search: (string, string) -> Option<Span>, pattern: string)
  {
    forall s: string :: search(pattern, s).Some? ==> search(pattern, s).value.start + 4 <= search(pattern, s).value.end <= |s|
  }

  /** The default of `limit`. */
  const DefaultLimit: int := 2000

  /** The state of a `DictMatch`: its keys, the combined pattern built from
      them, the iteration limit, the stream cursor, the shared iteration
      counter and the last sub-document found. */
  datatype DictMatch = DictMatch(keys: KeyList, pattern: string, limit: int, cursor: nat, cnt: nat, prev: Option<Json>)

  /** `DictMatch(keys, limit=2000)`: fewer than two keys raise a `TypeError`;
      otherwise the cursor and counter start at zero, nothing is remembered,
      and the pattern is the combined pattern of the keys. */
  function NewDictMatch(keys: seq<string>, limit: int := DefaultLimit): (r: Result<DictMatch, Error>)
    ensures r.Failure? <==> |keys| < 2
    ensures r.Success? ==>
      && r.value.keys == keys && r.value.limit == limit
      && r.value.cursor == 0 && r.value.cnt == 0 && r.value.prev == None
      && r.value.pattern == CombinedPattern(keys)
  {
    if |keys| < 2 then Failure(TypeError("Should be used for more than one key"))
    else Success(DictMatch(keys, CombinedPattern(keys), limit, 0, 0, None))
  }

  /** Where the retry loop of `dict_from_regex` ends: the window it last
      searched and the match found there, if any. */
  datatype Candidate = Candidate(startAt: int, endAt: int, found: Option<Span>)

  /** The retry loop of `dict_from_regex` from the window `(startAt, endAt)`:
      while the combined pattern misses the window and its right edge is past
      0, the pre-filter runs on the text after the right edge. The loop stops
      when that yields a negative edge, and otherwise both edges move on by
      what it returns. */
  function Retry(keys: KeyList, pattern: string, search: (string, string) -> Option<Span>, val: string,
                 truncate: (KeyList, string) -> (int, int), startAt: int, endAt: int): (c: Candidate)
    requires SearchWellFormed(search, pattern) && PrefilterShaped(truncate)
    requires (startAt, endAt) == (-1, -1) || (-1 <= startAt < endAt <= |val| && 0 < endAt)
    ensures c.found == search(pattern, Slice(val, c.startAt, c.endAt))
    ensures (c.startAt, c.endAt) == (-1, -1) <==> (startAt, endAt) == (-1, -1)
    ensures (c.startAt, c.endAt) == (-1, -1) || (startAt <= c.startAt < c.endAt <= |val| && endAt <= c.endAt)
    ensures c.found.Some? ==> 0 <= c.startAt && c.startAt + c.found.value.end <= c.endAt
    ensures c.found.None? ==> search(pattern, Slice(val, startAt, endAt)).None?
    ensures c.found.None? && 0 < c.endAt <= |val| ==> truncate(keys, val[c.endAt..]).0 < 0
    decreases |val| - endAt
  {
    var found := search(pattern, Slice(val, startAt, endAt));
    if found.Some? || endAt <= 0 then Candidate(startAt, endAt, found)
    else
      var t := truncate(keys, val[endAt..]);
      if t.0 < 0 || t.1 < 0 then Candidate(startAt, endAt, found)
      else Retry(keys, pattern, search, val, truncate, startAt + t.0, endAt + t.1)
  }

  /** Lines 102-110: the pre-filter's window over the whole text, then the
      retry loop. A text the pre-filter finds no window in has no match, and
      a match lies inside the text. */
  function FindCandidate(keys: KeyList, pattern: string, search: (string, string) -> Option<Span>, val: string,
                         truncate: (KeyList, string) -> (int, int)): (c: Candidate)
    requires SearchWellFormed(search, pattern) && PrefilterShaped(truncate)
    ensures (c.startAt, c.endAt) == (-1, -1) <==> truncate(keys, val).1 == -1
    ensures truncate(keys, val).1 == -1 ==> c.found.None?
    ensures c.found.None? ==>
      search(pattern, Slice(val, truncate(keys, val).0, truncate(keys, val).1)).None?
    ensures c.found.Some? ==> 0 <= c.startAt && c.startAt + c.found.value.end <= c.endAt <= |val|
    ensures c.found == search(pattern, Slice(val, c.startAt, c.endAt))
    ensures c.found.None? && 0 < c.endAt <= |val| ==> truncate(keys, val[c.endAt..]).0 < 0
  {
    var w := truncate(keys, val);
    assert |Slice(val, -1, -1)| == 0;
    Retry(keys, pattern, search, val, truncate, w.0, w.1)
  }

  /** A match in the pre-filter's first window is taken as it is: the retry
      loop only runs after a miss. */
  lemma FirstWindowHit(keys: KeyList, pattern: string, search: (string, string) -> Option<Span>, val: string,
                       truncate: (KeyList, string) -> (int, int))
    requires SearchWellFormed(search, pattern) && PrefilterShaped(truncate)
    requires search(pattern, Slice(val, truncate(keys, val).0, truncate(keys, val).1)).Some?
    ensures FindCandidate(keys, pattern, search, val, truncate)
      == Candidate(truncate(keys, val).0, truncate(keys, val).1, search(pattern, Slice(val, truncate(keys, val).0, truncate(keys, val).1)))
  {
    assert |Slice(val, -1, -1)| == 0;
  }

  /** Dropping the first `cut` characters of the match `init == val[lo:hi]`,
      just past a `{` that follows a `\W` character, leaves the text `str`;
      `myStart`, computed as the code does, is the offset just before `str`. */
  lemma SplitWindow(val: string, lo: nat, hi: nat, init: string, cut: Option<nat>, str: string, myStart: int)
    requires lo <= hi <= |val| && init == val[lo..hi]
    requires cut.Some? ==> 2 <= cut.value <= |init| && SeparatedBrace(init, cut.value - 1)
    requires str == if cut.Some? then init[cut.value..] else init
    requires myStart == lo + |init| - |str| - 1
    ensures cut.None? <==> myStart + 1 == lo
    ensures lo <= myStart + 1 <= hi && str == val[myStart + 1..hi]
    ensures cut.Some? ==> SeparatedBrace(val, myStart)
  {
    var from := myStart + 1;
    assert init[..from - lo] == val[lo..from];
    assert init == init[..from - lo] + str;
    if cut.Some? {
      assert init[cut.value..] == val[from..hi];
      assert init[cut.value - 1] == val[from - 1] && init[cut.value - 2] == val[from - 2];
    }
  }

  /** The window `dict_from_regex` builds from the match `val[lo:hi]` when
      `_remove_word` splits it after `cut` characters (not at all when `cut`
      is `None`): the text after the split, the offset just before that text,
      and the offset just past the match. */
  function SplitAt(val: string, lo: nat, hi: nat, cut: Option<nat>): (w: Window)
    requires lo <= hi <= |val|
    requires cut.Some? ==> 2 <= cut.value <= hi - lo && SeparatedBrace(val[lo..hi], cut.value - 1)
    ensures w.end == hi && lo <= w.start + 1 <= w.end
    ensures cut.None? <==> w.start + 1 == lo
    ensures cut.Some? ==> SeparatedBrace(val, w.start) && w.start + 1 == lo + cut.value
    ensures w.text == val[w.start + 1..w.end]
  {
    var init := val[lo..hi];
    var str := if cut.Some? then init[cut.value..] else init;
    var myStart := lo + |init| - |str| - 1;
    SplitWindow(val, lo, hi, init, cut, str, myStart);
    Window(str, myStart, hi)
  }

  /** The offsets `dict_from_regex` derives from a match at `sp` of the
      window starting at `startAt`: the text after the first `\W+{` of the
      match (the whole match when there is none), the offset just before that
      text, and the offset just past the match. */
  function Split(val: string, startAt: nat, endAt: int, sp: Span): (w: Window)
    requires startAt + sp.end <= endAt <= |val| && sp.start <= sp.end
    ensures w.end == startAt + sp.end
    ensures startAt + sp.start <= w.start + 1 <= w.end
    ensures SplitRemoveWord(val[startAt + sp.start..startAt + sp.end]).None? <==> w.start + 1 == startAt + sp.start
    ensures w.start + 1 == startAt + sp.start || SeparatedBrace(val, w.start)
    ensures SplitRemoveWord(val[startAt + sp.start..startAt + sp.end]).Some? ==>
      w.start + 1 == startAt + sp.start + SplitRemoveWord(val[startAt + sp.start..startAt + sp.end]).value
    ensures w.text == val[w.start + 1..w.end]
  {
    SplitAt(val, startAt + sp.start, startAt + sp.end, SplitRemoveWord(val[startAt + sp.start..startAt + sp.end]))
  }

  /** One step of a retriever: the value `dict_from_regex(val)` returns or
      the error it raises, with the retriever's new state. */
  datatype Step = Step(state: DictMatch, result: Result<Json, Error>)

  /** `dict_from_regex`. Without a match it returns `{}` and keeps the
      cursor. With a match it either raises `TypeError`, changing only the
      counter, or moves the cursor just past a window of the text that
      `loads` decodes to a non-empty value, and returns what the sub-document
      search makes of that value. A return resets the counter and remembers
      the result. */
  function DictFromRegex(m: DictMatch, val: string, search: (string, string) -> Option<Span>,
                         loads: string -> Option<Json>, dumps: Json -> string,
                         truncate: (KeyList, string) -> (int, int)): (step: Step)
    requires SearchWellFormed(search, m.pattern) && LoadsRejectsEmpty(loads) && PrefilterShaped(truncate)
    ensures step.state.keys == m.keys && step.state.pattern == m.pattern && step.state.limit == m.limit
    ensures step.result.Failure? ==> step.state == m.(cnt := step.state.cnt) && m.cnt <= step.state.cnt
    ensures step.result.Failure? && m.limit <= m.cnt ==> step.state == m
    ensures step.result.Success? ==>
      && step.state == m.(cursor := step.state.cursor, cnt := 0, prev := Some(step.result.value))
      && (step.result.value == Empty || Qualifies(m.keys, dumps, step.result.value))
    ensures step.state.cursor == m.cursor || m.cursor < step.state.cursor <= m.cursor + |val| + 1
    ensures step.result.Success? && Truthy(step.result.value) ==> m.cursor < step.state.cursor
    ensures m.limit <= m.cnt ==> step.result.Failure? || step.result == Success(Empty)
    ensures FindCandidate(m.keys, m.pattern, search, val, truncate).found.None? <==>
      step == Step(m.(cnt := 0, prev := Some(Empty)), Success(Empty))
    ensures FindCandidate(m.keys, m.pattern, search, val, truncate).found.Some? ==>
      (step.result.Failure? <==> step.state.cursor == m.cursor)
    ensures step.state.cursor != m.cursor ==>
      exists s, e :: m.cursor + e == step.state.cursor && loads(Slice(val, s, e)).Some? && Truthy(loads(Slice(val, s, e)).value)
        && step.result == Success(Sub(m.keys, dumps, loads(Slice(val, s, e)).value, Empty))
  {
    var c := FindCandidate(m.keys, m.pattern, search, val, truncate);
    if c.found.None? then
      var found := Sub(m.keys, dumps, Empty, Empty);
      Step(m.(cnt := 0, prev := Some(found)), Success(found))
    else
      var d := Decode(val, Split(val, c.startAt, c.endAt, c.found.value), m.cnt, m.limit, loads);
      var ret := if d.value.Some? then d.value.value else Empty;
      if !Truthy(ret) then Step(m.(cnt := d.cnt), Failure(TypeError("")))
      else
        var found := Sub(m.keys, dumps, ret, Empty);
        var cursor := m.cursor + d.window.end + 1;
        assert m.cursor + (d.window.end + 1) == cursor && Slice(val, d.window.start, d.window.end + 1) == d.window.text;
        Step(m.(cursor := cursor, cnt := 0, prev := Some(found)), Success(found))
  }

  /** The windows the decode loop of `dict_from_regex` hands to `json.loads`
      when the retry loop ends with a match: those tried from the window the
      split cuts out of the match. */
  function CandidateTried(m: DictMatch, val: string, search: (string, string) -> Option<Span>,
                          truncate: (KeyList, string) -> (int, int)): (ws: seq<Window>)
    requires SearchWellFormed(search, m.pattern) && PrefilterShaped(truncate)
    requires FindCandidate(m.keys, m.pattern, search, val, truncate).found.Some?
    ensures m.limit <= m.cnt ==> ws == []
    ensures forall k :: 0 <= k < |ws| ==> ws[k] == Cut(val, ws[k].start, ws[k].end)
  {
    var c := FindCandidate(m.keys, m.pattern, search, val, truncate);
    DecodeTried(val, Split(val, c.startAt, c.endAt, c.found.value), m.cnt, m.limit)
  }

  /** What `dict_from_regex` makes of a match: when the first window the
      decode loop tries that `loads` accepts decodes to a non-empty value, it
      returns the sub-document search of that value, moves the cursor just
      past the window, resets the counter and remembers the result;
      otherwise it raises `TypeError`, changing only the counter, which is
      used up when `loads` accepts none of the windows. */
  lemma MatchOutcome(m: DictMatch, val: string, search: (string, string) -> Option<Span>,
                     loads: string -> Option<Json>, dumps: Json -> string,
                     truncate: (KeyList, string) -> (int, int))
    requires SearchWellFormed(search, m.pattern) && LoadsRejectsEmpty(loads) && PrefilterShaped(truncate)
    requires FindCandidate(m.keys, m.pattern, search, val, truncate).found.Some?
    ensures var ws := CandidateTried(m, val, search, truncate);
      var k := FirstAccepted(ws, loads);
      var step := DictFromRegex(m, val, search, loads, dumps, truncate);
      if k < |ws| && Truthy(loads(ws[k].text).value) then
        && step.result == Success(Sub(m.keys, dumps, loads(ws[k].text).value, Empty))
        && step.state == m.(cursor := step.state.cursor, cnt := 0, prev := Some(step.result.value))
        && step.state.cursor == m.cursor + ws[k].end + 1
      else
        && step.result.Failure?
        && step.state == m.(cnt := step.state.cnt)
        && (k == |ws| && m.cnt < m.limit ==> step.state.cnt == m.limit)
  {
    var c := FindCandidate(m.keys, m.pattern, search, val, truncate);
    DecodeFirstAccepted(val, Split(val, c.startAt, c.endAt, c.found.value), m.cnt, m.limit, loads);
  }

  /** A match none of whose tried windows decodes raises `TypeError`, with
      the counter run up to the limit. */
  lemma NothingDecodedRaises(m: DictMatch, val: string, search: (string, string) -> Option<Span>,
                             loads: string -> Option<Json>, dumps: Json -> string,
                             truncate: (KeyList, string) -> (int, int))
    requires SearchWellFormed(search, m.pattern) && LoadsRejectsEmpty(loads) && PrefilterShaped(truncate)
    requires FindCandidate(m.keys, m.pattern, search, val, truncate).found.Some?
    requires forall k :: 0 <= k < |CandidateTried(m, val, search, truncate)| ==>
      loads(CandidateTried(m, val, search, truncate)[k].text).None?
    ensures DictFromRegex(m, val, search, loads, dumps, truncate).result.Failure?
    ensures m.cnt < m.limit ==> DictFromRegex(m, val, search, loads, dumps, truncate).state.cnt == m.limit
  {
    var ws := CandidateTried(m, val, search, truncate);
    MatchOutcome(m, val, search, loads, dumps, truncate);
    assert FirstAccepted(ws, loads) == |ws|;
  }

  /** `j` is what the sub-document search makes of a non-empty value that
      `loads` decodes from some slice `val[a:b]` of the text. */
  ghost predicate FromText(keys: KeyList, dumps: Json -> string, loads: string -> Option<Json>, val: string, j: Json)
  {
    exists a, b :: loads(Slice(val, a, b)).Some? && Truthy(loads(Slice(val, a, b)).value)
      && j == Sub(keys, dumps, loads(Slice(val, a, b)).value, Empty)
  }

  /** A call on the text from the cursor on that returns a non-empty value
      moves the cursor forward, and the value comes from a slice of the text. */
  lemma AdvanceFromText(m: DictMatch, val: string, search: (string, string) -> Option<Span>,
                        loads: string -> Option<Json>, dumps: Json -> string, truncate: (KeyList, string) -> (int, int))
    requires SearchWellFormed(search, m.pattern) && LoadsRejectsEmpty(loads) && PrefilterShaped(truncate)
    requires 0 <= m.cursor <= |val| + 1
    ensures var step := DictFromRegex(m, Slice(val, m.cursor, |val|), search, loads, dumps, truncate);
      step.result.Success? && Truthy(step.result.value) ==>
        m.cursor < |val| && m.cursor < step.state.cursor <= |val| + 1
        && FromText(m.keys, dumps, loads, val, step.result.value)
  {
    var rest := Slice(val, m.cursor, |val|);
    var step := DictFromRegex(m, rest, search, loads, dumps, truncate);
    if step.result.Success? && Truthy(step.result.value) {
      assert m.cursor < step.state.cursor;
      var s, e :| m.cursor + e == step.state.cursor && loads(Slice(rest, s, e)).Some?
        && Truthy(loads(Slice(rest, s, e)).value)
        && step.result == Success(Sub(m.keys, dumps, loads(Slice(rest, s, e)).value, Empty));
      SliceOfRest(val, m.cursor, s, e);
    }
  }

  /** What `dict_iter` yields from `state` on, and the state it leaves. One
      call of `dict_from_regex` on the text from the cursor on either raises
      or returns an empty value, which ends the run, or returns a non-empty
      value, which is yielded before the run from the state the call leaves. */
  function Iterate(state: DictMatch, val: string, search: (string, string) -> Option<Span>,
                   loads: string -> Option<Json>, dumps: Json -> string, truncate: (KeyList, string) -> (int, int))
    : (run: (seq<Json>, DictMatch))
    requires SearchWellFormed(search, state.pattern) && LoadsRejectsEmpty(loads) && PrefilterShaped(truncate)
    requires 0 <= state.cursor <= |val| + 1
    ensures run.0 != [] ==> state.cursor + |run.0| <= |val|
    ensures run.1.keys == state.keys && run.1.pattern == state.pattern && run.1.limit == state.limit
    ensures state.limit <= state.cnt ==> run.0 == []
    decreases |val| + 1 - state.cursor
  {
    var step := DictFromRegex(state, Slice(val, state.cursor, |val|), search, loads, dumps, truncate);
    if step.result.Failure? || !Truthy(step.result.value) then ([], step.state)
    else
      AdvanceFromText(state, val, search, loads, dumps, truncate);
      var rest := Iterate(step.state, val, search, loads, dumps, truncate);
      ([step.result.value] + rest.0, rest.1)
  }

  /** Every value of a run is non-empty, names every key, and is the
      sub-document search applied to a value decoded from a slice of the text. */
  lemma {:induction false} IterateFromText(state: DictMatch, val: string, search: (string, string) -> Option<Span>,
                                           loads: string -> Option<Json>, dumps: Json -> string,
                                           truncate: (KeyList, string) -> (int, int))
    requires SearchWellFormed(search, state.pattern) && LoadsRejectsEmpty(loads) && PrefilterShaped(truncate)
    requires 0 <= state.cursor <= |val| + 1
    ensures forall j :: j in Iterate(state, val, search, loads, dumps, truncate).0 ==>
      Truthy(j) && Qualifies(state.keys, dumps, j) && FromText(state.keys, dumps, loads, val, j)
    decreases |val| + 1 - state.cursor
  {
    var step := DictFromRegex(state, Slice(val, state.cursor, |val|), search, loads, dumps, truncate);
    IterateStops(state, val, search, loads, dumps, truncate);
    if !(step.result.Failure? || !Truthy(step.result.value)) {
      AdvanceFromText(state, val, search, loads, dumps, truncate);
      IterateFromText(step.state, val, search, loads, dumps, truncate);
    }
  }

  lemma AppendAssociates(a: seq<Json>, b: seq<Json>, c: seq<Json>)
    ensures a + (b + c) == (a + b) + c
  {
  }

  /** A run ends exactly when its first call raises or returns an empty
      value, and leaves the state that call leaves; otherwise it starts with
      that call's value, and the call moved the cursor forward. */
  lemma IterateStops(state: DictMatch, val: string, search: (string, string) -> Option<Span>,
                     loads: string -> Option<Json>, dumps: Json -> string, truncate: (KeyList, string) -> (int, int))
    requires SearchWellFormed(search, state.pattern) && LoadsRejectsEmpty(loads) && PrefilterShaped(truncate)
    requires 0 <= state.cursor <= |val| + 1
    ensures var step := DictFromRegex(state, Slice(val, state.cursor, |val|), search, loads, dumps, truncate);
      var run := Iterate(state, val, search, loads, dumps, truncate);
      && (run.0 == [] <==> step.result.Failure? || !Truthy(step.result.value))
      && (run.0 == [] ==> run.1 == step.state)
      && (run.0 != [] ==>
            && state.cursor < step.state.cursor <= |val| + 1
            && run == ([step.result.value] + Iterate(step.state, val, search, loads, dumps, truncate).0,
                       Iterate(step.state, val, search, loads, dumps, truncate).1))
  {
    var step := DictFromRegex(state, Slice(val, state.cursor, |val|), search, loads, dumps, truncate);
    if !(step.result.Failure? || !Truthy(step.result.value)) {
      AdvanceFromText(state, val, search, loads, dumps, truncate);
    }
  }

  /** With the pre-filter as written, the sample object at the very start of
      the text is never found: the call reports that nothing is left, and a
      run yields nothing. */
  lemma SampleObjectMissed(m: DictMatch, val: string, search: (string, string) -> Option<Span>,
                           loads: string -> Option<Json>, dumps: Json -> string)
    requires m.keys == SampleKeys && SpellsSample(val, 1)
    requires SearchWellFormed(search, m.pattern) && LoadsRejectsEmpty(loads)
    ensures PrefilterShaped(TruncateForSpeedup)
    ensures DictFromRegex(m, val, search, loads, dumps, TruncateForSpeedup) == Step(m.(cnt := 0, prev := Some(Empty)), Success(Empty))
    ensures Iterate(m.(cursor := 0), val, search, loads, dumps, TruncateForSpeedup).0 == []
  {
    PrefiltersShaped();
    SampleObjectAtStartSkipped(val);
    assert Slice(val, 0, |val|) == val;
  }

  /** With the corrected pre-filter the sample object at the very start of
      the text is searched: the first window is the whole text, so the
      combined pattern is searched over the object itself. It matches there
      (its `{"` takes the quote of `"x"`, and both keys follow), and that
      match is taken as it is, so the call does not report that nothing is
      left. */
  lemma SampleObjectSearched(m: DictMatch, val: string, search: (string, string) -> Option<Span>,
                             loads: string -> Option<Json>, dumps: Json -> string)
    requires m.keys == SampleKeys && SpellsSample(val, 1)
    requires SearchWellFormed(search, m.pattern) && LoadsRejectsEmpty(loads)
    ensures PrefilterShaped(TruncateForSpeedupFixed)
    ensures TruncateForSpeedupFixed(SampleKeys, val) == (0, |val|)
    ensures search(m.pattern, val).Some? ==>
      FindCandidate(m.keys, m.pattern, search, val, TruncateForSpeedupFixed) == Candidate(0, |val|, search(m.pattern, val))
      && DictFromRegex(m, val, search, loads, dumps, TruncateForSpeedupFixed) != Step(m.(cnt := 0, prev := Some(Empty)), Success(Empty))
  {
    PrefiltersShaped();
    SampleObjectAtStartSkipped(val);
    assert Slice(val, 0, |val|) == val;
    if search(m.pattern, val).Some? {
      FirstWindowHit(m.keys, m.pattern, search, val, TruncateForSpeedupFixed);
    }
  }

  /** `dict_iter(val)`, with the generator's values collected: the cursor
      restarts at 0, and the values and the final state are those of the run
      from there. So there are at most as many values as characters, and a
      counter already exhausted yields nothing. */
  method DictIter(m: DictMatch, val: string, search: (string, string) -> Option<Span>,
                  loads: string -> Option<Json>, dumps: Json -> string, truncate: (KeyList, string) -> (int, int))
    returns (results: seq<Json>, final: DictMatch)
    requires SearchWellFormed(search, m.pattern) && LoadsRejectsEmpty(loads) && PrefilterShaped(truncate)
    ensures (results, final) == Iterate(m.(cursor := 0), val, search, loads, dumps, truncate)
    ensures |results| <= |val|
    ensures m.limit <= m.cnt ==> results == []
  {
    var state := m.(cursor := 0);
    results := [];
    while true
      invariant state.keys == m.keys && state.pattern == m.pattern && state.limit == m.limit
      invariant 0 <= state.cursor <= |val| + 1
      invariant results + Iterate(state, val, search, loads, dumps, truncate).0
        == Iterate(m.(cursor := 0), val, search, loads, dumps, truncate).0
      invariant Iterate(state, val, search, loads, dumps, truncate).1
        == Iterate(m.(cursor := 0), val, search, loads, dumps, truncate).1
      decreases |val| + 1 - state.cursor
    {
      var step := DictFromRegex(state, Slice(val, state.cursor, |val|), search, loads, dumps, truncate);
      if step.result.Failure? || !Truthy(step.result.value) {
        assert Iterate(state, val, search, loads, dumps, truncate) == ([], step.state);
        assert results + [] == results;
        final := step.state;
        return;
      }
      AdvanceFromText(state, val, search, loads, dumps, truncate);
      ghost var rest := Iterate(step.state, val, search, loads, dumps, truncate);
      assert Iterate(state, val, search, loads, dumps, truncate) == ([step.result.value] + rest.0, rest.1);
      AppendAssociates(results, [step.result.value], rest.0);
      results := results + [step.result.value];
      state := step.state;
    }
  }
}

=== FILE: subdict.dfy ===
/**
 * The sub-document search run on a decoded object: a walk over the JSON tree
 * that remembers the last object, in pre-order, whose serialisation matches
 * every key. Serialisation (`json.dumps`) is a parameter of the model.
 */
module Subdict {
  import opened PyStr
  import opened Json
  import opened Keys

  /** A node the search would keep: an object whose serialisation matches
      every key. */
  predicate Qualifies(keys: KeyList, dumps: Json -> string, n: Json)
  {
    n.Obj? && MatchesAll(keys, dumps(n))
  }

  /** The search descends into an object's member value only when the
      serialised value matches the first key. */
  predicate Descends(keys: KeyList, dumps: Json -> string, v: Json)
  {
    Contains(dumps(v), keys[0])
  }

  /** `_subdict_from_big(j)` with `_prev` holding `prev` on entry: the value
      `_prev` holds on exit. */
  function Sub(keys: KeyList, dumps: Json -> string, j: Json, prev: Json): (r: Json)
    ensures r == prev || Qualifies(keys, dumps, r)
    decreases j, 2
  {
    match j
    case Obj(fields) =>
      SubFields(keys, dumps, j, 0, if MatchesAll(keys, dumps(j)) then j else prev)
    case Arr(items) => SubItems(keys, dumps, j, 0, prev)
    case _ => prev
  }

  /** The loop over the members of object `j` from member `i` on. */
  function SubFields(keys: KeyList, dumps: Json -> string, j: Json, i: nat, prev: Json): (r: Json)
    requires j.Obj? && i <= |j.fields|
    ensures r == prev || Qualifies(keys, dumps, r)
    decreases j, 1, |j.fields| - i
  {
    if i == |j.fields| then prev
    else
      var v := j.fields[i].1;
      SubFields(keys, dumps, j, i + 1, if Descends(keys, dumps, v) then Sub(keys, dumps, v, prev) else prev)
  }

  /** The loop over the items of array `j` from item `i` on. */
  function SubItems(keys: KeyList, dumps: Json -> string, j: Json, i: nat, prev: Json): (r: Json)
    requires j.Arr? && i <= |j.items|
    ensures r == prev || Qualifies(keys, dumps, r)
    decreases j, 1, |j.items| - i
  {
    if i == |j.items| then prev
    else SubItems(keys, dumps, j, i + 1, Sub(keys, dumps, j.items[i], prev))
  }

  /** Reference definition: the nodes the search is called on, in the order
      of the calls (pre-order, skipping member values whose serialisation
      does not match the first key). */
  function Visit(keys: KeyList, dumps: Json -> string, j: Json): (s: seq<Json>)
    ensures |s| >= 1 && s[0] == j
    decreases j, 2
  {
    match j
    case Obj(_) => [j] + VisitFields(keys, dumps, j, 0)
    case Arr(_) => [j] + VisitItems(keys, dumps, j, 0)
    case _ => [j]
  }

  function VisitFields(keys: KeyList, dumps: Json -> string, j: Json, i: nat): seq<Json>
    requires j.Obj? && i <= |j.fields|
    decreases j, 1, |j.fields| - i
  {
    if i == |j.fields| then []
    else
      var v := j.fields[i].1;
      (if Descends(keys, dumps, v) then Visit(keys, dumps, v) else []) + VisitFields(keys, dumps, j, i + 1)
  }

  function VisitItems(keys: KeyList, dumps: Json -> string, j: Json, i: nat): seq<Json>
    requires j.Arr? && i <= |j.items|
    decreases j, 1, |j.items| - i
  {
    if i == |j.items| then []
    else Visit(keys, dumps, j.items[i]) + VisitItems(keys, dumps, j, i + 1)
  }

  /** Reference definition: walk `nodes` in order, replacing the remembered
      value by every qualifying node. */
  function Pick(keys: KeyList, dumps: Json -> string, nodes: seq<Json>, prev: Json): Json
  {
    if nodes == [] then prev
    else Pick(keys, dumps, nodes[1..], if Qualifies(keys, dumps, nodes[0]) then nodes[0] else prev)
  }

  lemma {:induction false} PickAppend(keys: KeyList, dumps: Json -> string, a: seq<Json>, b: seq<Json>, prev: Json)
    ensures Pick(keys, dumps, a + b, prev) == Pick(keys, dumps, b, Pick(keys, dumps, a, prev))
    decreases |a|
  {
    if a != [] {
      assert (a + b)[1..] == a[1..] + b;
      PickAppend(keys, dumps, a[1..], b, if Qualifies(keys, dumps, a[0]) then a[0] else prev);
    } else {
      assert a + b == b;
    }
  }

  /** The search is the fold over the nodes it visits. */
  lemma {:induction false} SubIsPickOfVisit(keys: KeyList, dumps: Json -> string, j: Json, prev: Json)
    ensures Sub(keys, dumps, j, prev) == Pick(keys, dumps, Visit(keys, dumps, j), prev)
    decreases j, 2
  {
    var start := if Qualifies(keys, dumps, j) then j else prev;
    assert Pick(keys, dumps, [j], prev) == start;
    match j
    case Obj(_) =>
      SubFieldsIsPick(keys, dumps, j, 0, start);
      PickAppend(keys, dumps, [j], VisitFields(keys, dumps, j, 0), prev);
    case Arr(_) =>
      SubItemsIsPick(keys, dumps, j, 0, start);
      PickAppend(keys, dumps, [j], VisitItems(keys, dumps, j, 0), prev);
    case _ =>
  }

  lemma {:induction false} SubFieldsIsPick(keys: KeyList, dumps: Json -> string, j: Json, i: nat, prev: Json)
    requires j.Obj? && i <= |j.fields|
    ensures SubFields(keys, dumps, j, i, prev) == Pick(keys, dumps, VisitFields(keys, dumps, j, i), prev)
    decreases j, 1, |j.fields| - i
  {
    if i < |j.fields| {
      var v := j.fields[i].1;
      var mid := if Descends(keys, dumps, v) then Sub(keys, dumps, v, prev) else prev;
      var here := if Descends(keys, dumps, v) then Visit(keys, dumps, v) else [];
      if Descends(keys, dumps, v) {
        SubIsPickOfVisit(keys, dumps, v, prev);
      }
      assert Pick(keys, dumps, here, prev) == mid;
      SubFieldsIsPick(keys, dumps, j, i + 1, mid);
      PickAppend(keys, dumps, here, VisitFields(keys, dumps, j, i + 1), prev);
    }
  }

  lemma {:induction false} SubItemsIsPick(keys: KeyList, dumps: Json -> string, j: Json, i: nat, prev: Json)
    requires j.Arr? && i <= |j.items|
    ensures SubItems(keys, dumps, j, i, prev) == Pick(keys, dumps, VisitItems(keys, dumps, j, i), prev)
    decreases j, 1, |j.items| - i
  {
    if i < |j.items| {
      var mid := Sub(keys, dumps, j.items[i], prev);
      SubIsPickOfVisit(keys, dumps, j.items[i], prev);
      SubItemsIsPick(keys, dumps, j, i + 1, mid);
      PickAppend(keys, dumps, Visit(keys, dumps, j.items[i]), VisitItems(keys, dumps, j, i + 1), prev);
    }
  }

  /** The fold keeps the LAST qualifying node, or `prev` when none qualifies. */
  lemma {:induction false} PickIsLastQualifying(keys: KeyList, dumps: Json -> string, nodes: seq<Json>, prev: Json)
    ensures (forall k :: 0 <= k < |nodes| ==> !Qualifies(keys, dumps, nodes[k])) ==> Pick(keys, dumps, nodes, prev) == prev
    ensures (exists k :: 0 <= k < |nodes| && Qualifies(keys, dumps, nodes[k])) ==>
      exists k :: 0 <= k < |nodes| && Qualifies(keys, dumps, nodes[k]) && Pick(keys, dumps, nodes, prev) == nodes[k]
        && forall k' :: k < k' < |nodes| ==> !Qualifies(keys, dumps, nodes[k'])
    decreases |nodes|
  {
    if nodes != [] {
      var acc := if Qualifies(keys, dumps, nodes[0]) then nodes[0] else prev;
      PickIsLastQualifying(keys, dumps, nodes[1..], acc);
      assert forall k :: 1 <= k < |nodes| ==> nodes[k] == nodes[1..][k - 1];
      if exists k :: 1 <= k < |nodes| && Qualifies(keys, dumps, nodes[k]) {
        var k1 :| 0 <= k1 < |nodes[1..]| && Qualifies(keys, dumps, nodes[1..][k1])
          && Pick(keys, dumps, nodes, prev) == nodes[1..][k1]
          && forall k' :: k1 < k' < |nodes[1..]| ==> !Qualifies(keys, dumps, nodes[1..][k']);
        assert Qualifies(keys, dumps, nodes[k1 + 1]);
      } else if Qualifies(keys, dumps, nodes[0]) {
        assert Pick(keys, dumps, nodes[1..], acc) == nodes[0];
      }
    }
  }

  /** Which node the search leaves behind: `prev` when no visited node
      qualifies, and otherwise the last qualifying node in visiting order,
      so a qualifying descendant overrides its qualifying ancestor. */
  lemma SubKeepsLastVisitedMatch(keys: KeyList, dumps: Json -> string, j: Json, prev: Json)
    ensures var s := Visit(keys, dumps, j);
      (forall k :: 0 <= k < |s| ==> !Qualifies(keys, dumps, s[k])) ==> Sub(keys, dumps, j, prev) == prev
    ensures var s := Visit(keys, dumps, j);
      (exists k :: 0 <= k < |s| && Qualifies(keys, dumps, s[k])) ==>
        exists k :: 0 <= k < |s| && Qualifies(keys, dumps, s[k]) && Sub(keys, dumps, j, prev) == s[k]
          && forall k' :: k < k' < |s| ==> !Qualifies(keys, dumps, s[k'])
  {
    SubIsPickOfVisit(keys, dumps, j, prev);
    PickIsLastQualifying(keys, dumps, Visit(keys, dumps, j), prev);
  }
}

=== FILE: wrappers.dfy ===
/** Failure-carrying return types shared by the model. */
module Wrappers {

  /** A value that may be absent (Python's `None` / a failed search). */
  datatype Option<+T> = None | Some(value: T)

  /** A value or the error a Python call raises instead of returning. */
  datatype Result<+T, +E> = Success(value: T) | Failure(error: E)
}
